=== FILE: README.md ===
# Invitii check-in core, in Dafny

A model of the ticketing and check-in logic of Invitii, an event-invitation app for
iOS, and of its companion Telegram staffing bot. The model covers:

- **Signed QR payload** (`QRCodes`). A confirmed RSVP gets a payload carrying the RSVP
  id, event id, guest and event names, event date, issuance time and the signature
  `sha256("rsvpId:eventId:INVITII_SECRET_KEY")`. Validation runs a fixed chain of
  checks: decode, event match, signature, then "no later than one day after the
  event". Batch issuance covers the confirmed RSVPs only. SHA-256 and the
  JSON + base64 codec are function parameters. The round trip
  `decode(encode(p)) == Some(p)` is the hypothesis `RoundTrips(codec)` of the lemmas
  that need it.
- **In-memory store** (`EventStore`, from the view model). It holds events, guests,
  RSVPs, the add-guest form and the last imported rows. Each operation is a pure
  function from one store state to the next. Events are updated and deleted by id.
  Guests are added from the form, imported from CSV text or removed. A new RSVP
  replaces the guest's previous one. Only a "yes" gets a check-in code: "QR_" plus
  eight characters of a UUID. A code lookup returns invalid, already used or
  success. Redemption sets the used flag and its time.
- **Guest-list export** (`GuestExport`). It writes one CSV line per guest of an
  event, with the guest's RSVP status and response time. Reading the export back
  through the CSV import gives the guests' names, phones and emails.
- **Door scanner** (`Scanner`). It looks a code up and writes to the store only on
  success. The entry is cleared after every scan. It also computes the
  checked-in and remaining figures. Two scans of one code in a row give success
  and then "already used". Any number of scans admit at most once.
- **Record helpers**:
  - RSVP statuses and scan-result constructors (`Rsvps`).
  - Status counts of an event (`Events`).
  - Phone-number formatting and validation, and the CSV guest import (`Guests`).
  - The host's event quota (`Users`).
  - The multipart/form-data upload body (`Multipart`). It follows section 5.1.1 of
    RFC 2046 and section 4.2 of RFC 7578.
- **Staffing bot** (`SelectionBot`). It invites the employees who live within 15 km
  of the event's area. The first invited employee to answer "موافقة" is chosen for
  good.

`Date()` and `UUID()` are parameters (`now` in whole seconds, `newId`, `uuid`), and
"one calendar day" is 86400 seconds. `Wrappers`, `Seqs` and `Text` hold shared
helpers:

- `Option`.
- Swift's `filter`, `first(where:)` and `firstIndex(where:)`.
- Foundation's `components(separatedBy:)` and `trimmingCharacters(in:)`, with the
  exact `CharacterSet.newlines` and `whitespacesAndNewlines`.
- Python's `str.strip`, with its exact whitespace set.

## Behaviour of the code worth knowing

The model follows the code as written. Some of its behaviour is easy to miss:

- The signature covers only the RSVP id and event id, joined by ':'. Guest name,
  event date and issuance time are not authenticated
  (`QRCodes.UnsignedFieldsNotAuthenticated`). The unescaped ':' lets two id pairs
  share one signature (`QRCodes.SigningInputAmbiguous`).
- The payload's format version is written but never read during validation.
- The app's check-in path does not use the signed payload. It uses the store's
  unsigned "QR_xxxxxxxx" codes. That lookup never compares the RSVP's event with the
  event being scanned (`Scanner.OtherEventCodeAdmitted`).
- Redemption is a lookup followed by a separate mark. `markQRCodeAsUsed` itself has
  no guard: on an already used RSVP it overwrites the use time. A code admits at
  most once because the scanner marks only after a successful lookup
  (`Scanner.AdmitsAtMostOnce`). That needs distinct RSVP ids.
- `processRSVP` accepts any event id and does not compare it with the guest's own
  event. It removes the guest's earlier RSVPs. For an unknown guest it returns
  without changing anything or reporting anything.
- The export writes every field unquoted. A name, phone or email that contains a
  comma or a line break shifts the columns when the file is read back. A guest
  without an email reads back with an empty one (`GuestExport.ExportReadsBack`).
  The status and response time come from the guest's first RSVP in the whole
  store, whatever event it belongs to.
- The scanner's "Remaining" figure subtracts the store's checked-in count from the
  selected event's own confirmed count. The two agree as long as the event's RSVP
  list was refreshed after the store's last RSVP change, and a scan keeps that
  agreement (`Scanner.RemainingStaysNonNegative`).

Some consequences of the code as written, proved as lemmas:

- A phone number made only of separators formats to "+965", which passes
  validation (`Guests.CountryCodeAloneIsValid`).
- The pending count is a plain subtraction and can go negative
  (`Events.PendingCountCanBeNegative`).

## Model

| member | source | states |
|---|---|---|
| Rsvps.StatusFromRawValue | Invitii/Invitii/Models/RSVP.swift:3-7 | a status decoded from a string is the one whose raw value is that string |
| Rsvps.StatusRawValueRoundTrip | Invitii/Invitii/Models/RSVP.swift:3-20 | decoding a status's raw value gives the status back; the four raw values and the four display names are pairwise distinct |
| Rsvps.NewRSVP | Invitii/Invitii/Models/RSVP.swift:52-74 | a default-initialised RSVP is not checked in (flag false, no use time) and is stamped with the current time as response and creation time |
| Rsvps.Success | Invitii/Invitii/Models/RSVP.swift:86-95 | a success result is valid, not already used, has no error message and names the RSVP, event and guest |
| Rsvps.AlreadyUsed | Invitii/Invitii/Models/RSVP.swift:97-106 | an already-used result is not valid, is flagged used, and says "QR code has already been used" |
| Rsvps.Invalid | Invitii/Invitii/Models/RSVP.swift:108-117 | an invalid result names nothing (empty ids and name), has both flags false and carries its reason; no constructor yields valid and used together |
| Guests.NewGuest | Invitii/Invitii/Models/Guest.swift:36-55 | a new guest has no invitation, link or code yet and has not opened anything |
| Guests.FormattedPhoneNumber | Invitii/Invitii/Models/Guest.swift:16-28 | the formatted number has no space, '-', '(' or ')' and starts with '+'; it is the separator-free number itself when that starts with '+', and "+965" before it otherwise |
| Guests.CleanedIsFilter | Invitii/Invitii/Models/Guest.swift:18-21 | the four successive replacements remove exactly the four separator characters |
| Guests.FormattedPhoneNumberIdempotent | Invitii/Invitii/Models/Guest.swift:16-28 | formatting a formatted number changes nothing |
| Guests.ValidLocalNumber | Invitii/Invitii/Models/Guest.swift:30-34 | a number without a leading '+' is valid iff, separators removed, it is all digits and at most 12 of them (E.164's 15 minus the country code) |
| Guests.ValidInternationalNumber | Invitii/Invitii/Models/Guest.swift:30-34 | a number with a leading '+' is valid iff, separators removed, it is '+', a digit 1-9 and 1 to 14 more digits |
| Guests.CountryCodeAloneIsValid | Invitii/Invitii/Models/Guest.swift:24-34 | an empty or separator-only number formats to "+965" and is accepted as valid |
| Guests.ParseRow | Invitii/Invitii/Models/Guest.swift:72-81 | a line gives a row iff it splits into at least two columns whose trimmed first and second columns are non-empty; the row's name and phone are those trimmed columns, and its email is the trimmed third column exactly when there is one |
| Guests.ParseCSV | Invitii/Invitii/Models/Guest.swift:64-85 | the import yields at most one guest per line after the first, each with a non-empty name and phone |
| Guests.ParseCSVAppendLine | Invitii/Invitii/Models/Guest.swift:66-85 | a further line adds its own row, if it parses, after the rows already imported, so rows keep input order |
| Guests.ParseCSVHeaderOnly | Invitii/Invitii/Models/Guest.swift:66-69 | text without a line break is only a header and imports nobody |
| Guests.ParseRowOfFields | Invitii/Invitii/Models/Guest.swift:72-80 | "name,phone" and "name,phone,email" rows read back as their fields, an empty email included |
| Events.StatusCountsPartition | Invitii/Invitii/Models/Event.swift:23-33 | the yes, no, maybe and pending counts add up to the number of RSVPs |
| Events.AnsweredAtMostRSVPs | Invitii/Invitii/Models/Event.swift:23-37 | confirmed + declined + maybe never exceeds the RSVPs, so pending is at least guests minus RSVPs |
| Events.StatusCountAppend | Invitii/Invitii/Models/Event.swift:23-33 | appending an RSVP raises only its own status's count, by one |
| Events.AppendConfirmed | Invitii/Invitii/Models/Event.swift:23-37 | appending a yes raises the confirmed count by one, keeps declined and maybe, and lowers pending by one |
| Events.PendingCountCanBeNegative | Invitii/Invitii/Models/Event.swift:19-37 | with no guests and one confirmed RSVP the pending count is -1: it is not clamped |
| Users.RoleFromRawValue | Invitii/Invitii/Models/User.swift:3-7 | a role decoded from a string is the one whose raw value is that string |
| Users.RoleRawValueRoundTrip | Invitii/Invitii/Models/User.swift:3-17 | decoding a role's raw value gives it back; the three roles have distinct raw values and display names |
| Users.RemainingEvents | Invitii/Invitii/Models/User.swift:73-75 | remaining events are never negative, zero exactly when the limit is reached, and otherwise fill the gap to the limit |
| Users.RemainingEventsPermitCreation | Invitii/Invitii/Models/User.swift:64-75 | quota left always permits creation whatever the subscription; without quota only an active subscription does; with no expiry, creation needs quota |
| Users.SubscriptionActiveEarlier | Invitii/Invitii/Models/User.swift:64-67 | a subscription active now was active at every earlier time |
| QRCodes.ValidateQRCode | Invitii/Invitii/Services/QRCodeGenerator.swift:55-103 | undecodable input gives not valid, no ids and "Invalid QR code format"; the result is valid iff the payload is for the scanning event, signed over its own ids and scanned no later than a day after the event; a wrong event is reported before the signature, a bad signature before expiry; a valid result has no message and names the payload's RSVP and guest |
| QRCodes.IssuedPayload | Invitii/Invitii/Services/QRCodeGenerator.swift:12-25 | an issued payload carries the RSVP's id and guest name, the event's date, and a signature that passes the event and signature checks at its event |
| QRCodes.IssuedCodeValidates | Invitii/Invitii/Services/QRCodeGenerator.swift:12-25 | given the codec round trip, an issued code scanned at its event is valid exactly until one day after the event (the deadline itself included) and otherwise expired |
| QRCodes.IssuedCodeRefusedElsewhere | Invitii/Invitii/Services/QRCodeGenerator.swift:65-73 | an issued code scanned at another event is refused as "for a different event", whatever its signature and date |
| QRCodes.UnsignedFieldsNotAuthenticated | Invitii/Invitii/Services/QRCodeGenerator.swift:155-158 | only the two ids are signed: two payloads with the same ids and signature that are both inside or both outside the grace window validate identically, apart from the reported guest name |
| QRCodes.SigningInputAmbiguous | Invitii/Invitii/Services/QRCodeGenerator.swift:155-158 | ids containing ':' can collide: ("a:b", "c") and ("a", "b:c") share one signature |
| QRCodes.GenerateQRCodesForEvent | Invitii/Invitii/Services/QRCodeGenerator.swift:107-116 | the keys are exactly the ids of the yes RSVPs; each key maps to the code of the last yes RSVP with that id |
| EventStore.ClearGuestForm | Invitii/Invitii/ViewModels/EventViewModel.swift:260-264 | the three form fields become empty and nothing else changes |
| EventStore.UpdateEventGuestList | Invitii/Invitii/ViewModels/EventViewModel.swift:230-234 | the first event with that id gets the store's guests of that event; other events, and everything for an unknown id, stay unchanged; no other field of the store changes |
| EventStore.UpdateEventRSVPList | Invitii/Invitii/ViewModels/EventViewModel.swift:236-240 | the first event with that id gets the store's RSVPs of that event; other events, and everything for an unknown id, stay unchanged; no other field of the store changes |
| EventStore.AddGuest | Invitii/Invitii/ViewModels/EventViewModel.swift:84-97 | an empty name or phone changes nothing; otherwise exactly one guest of that event is appended (email absent iff the field is empty), the form is cleared, the selected event is untouched, and only the first event with that id changes, its guest list set to the store's guests of that event; guests, form and events are the only fields that change |
| EventStore.AddGuestListedOnEvent | Invitii/Invitii/ViewModels/EventViewModel.swift:94-95 | after adding, the event's guest list is its earlier guests plus the new one, last |
| EventStore.RemoveGuest | Invitii/Invitii/ViewModels/EventViewModel.swift:116-121 | every guest with that id is gone and every other guest is kept; the RSVPs are untouched; with an event selected, only the first event with the selected id changes, its guest list set to the store's remaining guests of that event; with none selected the events are untouched; guests and events are the only fields that change |
| EventStore.ImportGuestsFromCSV | Invitii/Invitii/ViewModels/EventViewModel.swift:99-114 | one new guest of the event per parsed row is appended, in row order, with the row's name, phone and email; earlier guests, RSVPs, form and selection are kept; the event's guest list is refreshed and the parsed rows are remembered |
| EventStore.ImportListedOnEvent | Invitii/Invitii/ViewModels/EventViewModel.swift:99-114 | after an import the event lists its earlier guests followed by every imported guest |
| EventStore.ImportHeaderOnly | Invitii/Invitii/ViewModels/EventViewModel.swift:99-114 | text without a line break imports nobody and remembers no rows |
| EventStore.UpdateEvent | Invitii/Invitii/ViewModels/EventViewModel.swift:60-67 | the first event with the same id is replaced, the selection too when it has that id; others, and everything for an unknown id, stay unchanged; nothing but the events and the selection changes |
| EventStore.UpdateEventFound | Invitii/Invitii/ViewModels/EventViewModel.swift:60-67 | after an update, looking the id up finds the new version at the same position, and updating again changes nothing |
| EventStore.DeleteEvent | Invitii/Invitii/ViewModels/EventViewModel.swift:69-74 | the events become exactly those without that id, in their earlier order: none with that id is left, every other is kept; a selection with that id is cleared, and nothing else changes |
| EventStore.DeleteEventFinal | Invitii/Invitii/ViewModels/EventViewModel.swift:60-74 | after a delete the id is not found, and deleting or updating that event again changes nothing |
| EventStore.GeneratedCode | Invitii/Invitii/ViewModels/EventViewModel.swift:242-244 | a store code is "QR_" and the first eight characters of the UUID |
| EventStore.ProcessRSVP | Invitii/Invitii/ViewModels/EventViewModel.swift:151-174 | an unknown guest changes nothing; otherwise the new RSVP is the guest's only one, appended last, the others keep their order, and it has a code iff the answer is yes, is unused and copies the guest's name and phone; the selected event is untouched and only the first event with the given id changes, its RSVP list set to the store's RSVPs of that event; RSVPs and events are the only fields that change |
| EventStore.ProcessRSVPShape | Invitii/Invitii/ViewModels/EventViewModel.swift:164-166 | dropping a guest's RSVPs and appending a new one leaves the other guests' RSVPs as they were |
| EventStore.ValidateQRCode | Invitii/Invitii/ViewModels/EventViewModel.swift:178-190 | an unknown code is invalid with "Invalid QR code"; otherwise the first RSVP with the code decides: already used iff its flag is set, else success, naming that RSVP |
| EventStore.MarkQRCodeAsUsed | Invitii/Invitii/ViewModels/EventViewModel.swift:192-197 | only the first RSVP with that id is marked used with the given time; an unknown id is a no-op and no flag is ever cleared; nothing but the RSVPs changes |
| EventStore.ProcessRSVPPreservesValid | Invitii/Invitii/ViewModels/EventViewModel.swift:151-174 | with a fresh id, recording an RSVP keeps one RSVP per guest, distinct ids, codes only on yes, and use only with a code |
| EventStore.GuestEditsPreserveValid | Invitii/Invitii/ViewModels/EventViewModel.swift:84-121 | adding, importing or removing guests keeps the store valid |
| GuestExport.GuestRSVP | Invitii/Invitii/ViewModels/EventViewModel.swift:207 | the RSVP used for a guest is the first of the store's RSVPs for that guest, and there is none exactly when the guest has no RSVP |
| GuestExport.ExportLines | Invitii/Invitii/ViewModels/EventViewModel.swift:202-214 | the text built so far starts with the header line and ends with a line break |
| GuestExport.ExportGuestListToCSV | Invitii/Invitii/ViewModels/EventViewModel.swift:201-215 | the export starts with the header "Name,Phone,Email,RSVP Status,Response Time" and ends with a line break |
| GuestExport.GuestLineReadsBack | Invitii/Invitii/ViewModels/EventViewModel.swift:206-212 | a guest line with plain, trimmed fields has no line break and imports as the guest's name, phone and email column |
| GuestExport.ExportLinesReadBack | Invitii/Invitii/ViewModels/EventViewModel.swift:202-214 | importing the text of the export loop gives back one row per exported guest, in order, skipping the header |
| GuestExport.ExportReadsBack | Invitii/Invitii/ViewModels/EventViewModel.swift:201-215 | importing an event's export gives back its guests in store order: name, phone and email, an absent email coming back empty |
| Scanner.StoreAfterScan | Invitii/Invitii/Views/QRScannerView.swift:110-112 | a scan that does not succeed leaves the store as it was |
| Scanner.HandleQRCodeScan | Invitii/Invitii/Views/QRScannerView.swift:105-115 | the shown result is the lookup's; the store is marked only on success, unchanged otherwise; the entered code is cleared |
| Scanner.ValidateButton | Invitii/Invitii/Views/QRScannerView.swift:89-93 | an empty entry is never submitted; a non-empty one is scanned: the lookup's result is shown, the store is redeemed exactly when the lookup succeeds and unchanged otherwise, and the entry is cleared |
| Scanner.RedeemsScannedRSVP | Invitii/Invitii/Views/QRScannerView.swift:105-112 | with distinct ids, success marks exactly the RSVP carrying the scanned code |
| Scanner.SecondScanUsed | Invitii/Invitii/Views/QRScannerView.swift:106-112 | after a successful scan the same code is found on the same RSVP, now already used |
| Scanner.ScanTwice | Invitii/Invitii/Views/QRScannerView.swift:105-115 | scanning an unused code twice gives success, then already used for the same RSVP, and the second scan writes nothing |
| Scanner.NonAdmittingScanRepeats | Invitii/Invitii/Views/QRScannerView.swift:110-112 | an invalid or already-used scan writes nothing, so every later scan repeats its result |
| Scanner.AdmitsAtMostOnce | Invitii/Invitii/Views/QRScannerView.swift:105-115 | in any run of scans of one code only the first can admit, and after it every scan reports already used |
| Scanner.SuccessfulScanChecksInOne | Invitii/Invitii/Views/QRScannerView.swift:122-124 | a successful scan raises the checked-in count of the scanned RSVP's event by one and no other event's |
| Scanner.ScanPreservesValid | Invitii/Invitii/Views/QRScannerView.swift:105-112 | scanning keeps the store valid: only confirmed RSVPs with a code are ever checked in |
| Scanner.OtherEventCodeAdmitted | Invitii/Invitii/Views/QRScannerView.swift:105-112 | an unused code of another event than the selected one is admitted and marked |
| Scanner.RemainingNonNegative | Invitii/Invitii/Views/QRScannerView.swift:122-130 | when the event's confirmed count agrees with the valid store's yes RSVPs for it, checked in never exceeds confirmed, so remaining is not negative |
| Scanner.RefreshPutsConfirmedInStep | Invitii/Invitii/ViewModels/EventViewModel.swift:236-240 | after the RSVP list of a known event is refreshed, its confirmed count agrees with the store's yes RSVPs for it |
| Scanner.ScanKeepsConfirmedInStep | Invitii/Invitii/Views/QRScannerView.swift:105-112 | a scan, admitting or not, keeps an event's confirmed count in agreement with the store, since marking a code used never changes a status |
| Scanner.RemainingStaysNonNegative | Invitii/Invitii/Views/QRScannerView.swift:122-130 | from a valid store and an event in agreement with it, the remaining figure is not negative after any sequence of scans |
| Multipart.CreateMultipartBody | Invitii/Invitii/Services/APIService.swift:248-261 | the body opens with "--boundary" CRLF, has the payload verbatim right after the headers and ends with CRLF "--boundary--" CRLF; its length is the payload plus 88 plus twice the boundary plus file name plus MIME type |
| Multipart.ExtractCreatedBody | Invitii/Invitii/Services/APIService.swift:248-261 | reading the payload back out of a built body gives the file unchanged |
| SelectionBot.NormalizeAcceptance | main.py:74-77 | a message counts as acceptance iff, stripped, it is exactly "موافقة" |
| SelectionBot.Notices | main.py:80-82 | the notices say "another employee chosen", go only to invited chats and never to the chosen one |
| SelectionBot.NoticesCount | main.py:80-82 | every other invited chat gets one notice per occurrence in the list, the chosen chat none |
| SelectionBot.HandleMessage | main.py:71-85 | an acceptance from an invited chat while nobody is chosen selects it and replies confirmation then notices; once chosen, the choice stays and every message gets the already-chosen reply; anything else changes nothing and sends nothing |
| SelectionBot.FirstAcceptanceWins | main.py:77-78 | from no choice, the chosen chat after any message sequence is the sender of the first acceptance from an invited chat |
| SelectionBot.ChoiceIsFinal | main.py:77-85 | once chosen, later messages never change the state and each gets exactly the already-chosen reply |
| SelectionBot.NearbyEmployeesAppend | main.py:119-124 | one more employee row adds its chat id exactly when its area is known and within 15 km |
| SelectionBot.SelectInvitees | main.py:115-124 | nobody is invited for an unknown area; otherwise exactly the employees with a known area within 15 km, in row order |
| SelectionBot.Invitations | main.py:126-132 | one invitation naming the area goes to each invited chat, in list order |

## Left out

- Views, navigation, `AuthViewModel`, `WhatsAppService` and `APIService`'s
  requests: they are presentation and network I/O.
- `createEvent` and `sendInvitations` run their edits after a timer
  (`DispatchQueue.main.asyncAfter`) and set a loading flag. `selectEvent`,
  `loadRSVPsForEvent` and the private loaders replace the lists with the built-in
  sample data. `sendQRCodeToGuest` only prints. None of them is modelled.
- `GuestExport.ExportGuestListToCSV`: `Date.formatted()` is the parameter
  `formatDate`; its locale-dependent output is not modelled.
- QR image generation and styling (CoreImage/UIKit). SHA-256, JSON and base64 are
  parameters, and `encodeQRData`'s "" on an encoder error is not modelled.
- `QRCodes.ValidateQRCode`: the grace window is a fixed 86400 seconds. A calendar
  day across a daylight-saving change, and the `?? eventDate` fallback, are not
  modelled.
- `QRCodes.ValidateQRCode`: `now` and the dates are whole seconds. Swift's `Date`
  has sub-second precision, which can matter for a scan within a second of the
  deadline.
- `QRCodes.GenerateQRCodesForEvent`: one `now` serves the whole batch, where the
  source reads the clock once per code.
- `Rsvps.NewRSVP`: one `now` stamps both the response time and the creation time.
  The initialiser reads `Date()` twice, so in the source the two can differ by a
  clock tick.
- `EventStore.ImportGuestsFromCSV`: one `now` stamps every imported guest. Each
  `Guest` initialiser reads `Date()` again, so in the source the creation times can
  differ across the batch.
- `rsvpRate` and `formatResponseTime` use floating point. The haversine
  `calculate_distance_km` is the parameter `distanceKm`.
- `Users.RemainingEvents`: integers are unbounded. Swift's 64-bit subtraction would
  trap on overflow only for limits and counts near the 64-bit range.
- `Guests.MatchesE164Pattern`: `\d` is taken as ASCII 0-9. ICU's `\d` also accepts
  other Unicode decimal digits.
- `SelectionBot.Normalize`: `lower()` is applied to ASCII letters only. Full Unicode
  lowering does not produce Arabic letters, so `NormalizeAcceptance` should carry
  over, but that is not proved.
- Swift `String` is a sequence of grapheme clusters, and its `==` compares by
  canonical equivalence, so "é" as one scalar equals "e" followed by a combining
  accent. The model's strings are sequences of Unicode scalars, compared scalar by
  scalar. This affects every string comparison: the event and signature checks of
  the signed payload, the code lookup, each lookup by id, the acceptance word, and
  also `prefix(8)`, `hasPrefix` and the splits. Ids are `UUID().uuidString` and
  codes are "QR_" plus part of one. Both are ASCII, and there the two comparisons
  agree.
- The bot's Telegram sends, Google Sheets reads, Calendar insertion and Excel loading
  are I/O. The replies it would send are returned as data. `AreaCoords` is the
  area table.
- Concurrency: the app runs these operations one at a time on the main actor. The
  model is a sequence of state transitions.

=== FILE: event.dfy ===
/** Events and their RSVP statistics (Models/Event.swift). */
module Events {
  import opened Wrappers
  import Seqs
  import opened Rsvps
  import opened Guests

  datatype Event = Event(
    id: string,
    name: string,
    date: int,
    time: string,
    venue: string,
    description: string,
    coverImageURL: Option<string>,
    coverVideoURL: Option<string>,
    hostId: string,
    guests: seq<Guest>,
    rsvps: seq<RSVP>,
    createdAt: int,
    updatedAt: int)

  /** The RSVPs among `rsvps` that have status `st`, in order. */
  function WithStatus(rsvps: seq<RSVP>, st: RSVPStatus): seq<RSVP> {
    Seqs.Filter(rsvps, (r: RSVP) => r.status == st)
  }

  /** How many of `rsvps` have status `st`. */
  function StatusCount(rsvps: seq<RSVP>, st: RSVPStatus): nat {
    |WithStatus(rsvps, st)|
  }

  function TotalGuests(e: Event): int {
    |e.guests|
  }

  function ConfirmedCount(e: Event): nat {
    StatusCount(e.rsvps, Yes)
  }

  function DeclinedCount(e: Event): nat {
    StatusCount(e.rsvps, No)
  }

  function MaybeCount(e: Event): nat {
    StatusCount(e.rsvps, Maybe)
  }

  /** Guests without a yes/no/maybe answer, computed by subtraction and not clamped: it
      is negative whenever the event holds more answers than guests. */
  function PendingCount(e: Event): int {
    TotalGuests(e) - ConfirmedCount(e) - DeclinedCount(e) - MaybeCount(e)
  }

  /** Every RSVP has exactly one of the four statuses, so the four counts add up to the
      number of RSVPs. */
  lemma {:induction false} StatusCountsPartition(rsvps: seq<RSVP>)
    ensures StatusCount(rsvps, Yes) + StatusCount(rsvps, No) + StatusCount(rsvps, Maybe)
            + StatusCount(rsvps, Pending) == |rsvps|
    decreases |rsvps|
  {
    if |rsvps| > 0 {
      StatusCountsPartition(rsvps[1..]);
    }
  }

  /** The confirmed, declined and maybe counts together never exceed the RSVPs. */
  lemma AnsweredAtMostRSVPs(e: Event)
    ensures ConfirmedCount(e) + DeclinedCount(e) + MaybeCount(e) <= |e.rsvps|
    ensures PendingCount(e) >= |e.guests| - |e.rsvps|
  {
    StatusCountsPartition(e.rsvps);
  }

  /** Appending one RSVP raises the count of its own status by one and leaves every
      other status count alone. */
  lemma StatusCountAppend(rsvps: seq<RSVP>, r: RSVP, st: RSVPStatus)
    ensures StatusCount(rsvps + [r], st) == StatusCount(rsvps, st) + (if r.status == st then 1 else 0)
  {
    Seqs.FilterAppend(rsvps, [r], (x: RSVP) => x.status == st);
  }

  /** Appending a confirmed RSVP to an event raises the confirmed count by one and keeps
      the declined and maybe counts. */
  lemma AppendConfirmed(e: Event, r: RSVP)
    requires r.status == Yes
    ensures ConfirmedCount(e.(rsvps := e.rsvps + [r])) == ConfirmedCount(e) + 1
    ensures DeclinedCount(e.(rsvps := e.rsvps + [r])) == DeclinedCount(e)
    ensures MaybeCount(e.(rsvps := e.rsvps + [r])) == MaybeCount(e)
    ensures PendingCount(e.(rsvps := e.rsvps + [r])) == PendingCount(e) - 1
  {
    StatusCountAppend(e.rsvps, r, Yes);
    StatusCountAppend(e.rsvps, r, No);
    StatusCountAppend(e.rsvps, r, Maybe);
  }

  /** The pending count goes below zero for an event with one confirmed RSVP and no
      guest list. */
  lemma PendingCountCanBeNegative(e: Event, r: RSVP)
    requires e.guests == [] && e.rsvps == [r] && r.status == Yes
    ensures TotalGuests(e) == 0 && ConfirmedCount(e) == 1
    ensures PendingCount(e) == -1
  {
    assert WithStatus([r], No) == [] && WithStatus([r], Maybe) == [];
  }
}

=== FILE: event_store.dfy ===
/** The in-memory store behind the app's screens and its check-in path
    (ViewModels/EventViewModel.swift). Each operation maps a store state to the next
    one; `Date()` is the parameter `now` and `UUID()` the parameters `newId` / `uuid`. */
module EventStore {
  import opened Wrappers
  import Seqs
  import opened Rsvps
  import opened Guests
  import opened Events
  import Text

  /** The three guest form fields bound to the add-guest screen. */
  datatype GuestForm = GuestForm(name: string, phone: string, email: string)

  const EmptyGuestForm := GuestForm("", "", "")

  datatype Store = Store(
    events: seq<Event>,
    selectedEvent: Option<Event>,
    guests: seq<Guest>,
    rsvps: seq<RSVP>,
    form: GuestForm,
    importedGuests: seq<GuestImportData>)

  const InvalidCodeMessage: string := "Invalid QR code"

  /** The store's guests that belong to `eventId`, in order. */
  function GuestsOf(guests: seq<Guest>, eventId: string): seq<Guest> {
    Seqs.Filter(guests, (g: Guest) => g.eventId == eventId)
  }

  /** The store's RSVPs that belong to `eventId`, in order. */
  function RSVPsOf(rsvps: seq<RSVP>, eventId: string): seq<RSVP> {
    Seqs.Filter(rsvps, (r: RSVP) => r.eventId == eventId)
  }

  /** Where `firstIndex(where: { $0.id == eventId })` lands among the events. */
  function EventIndex(events: seq<Event>, eventId: string): Option<nat> {
    Seqs.FirstIndex(events, (e: Event) => e.id == eventId)
  }

  /** `after` is `before` with the first event with id `eventId`, if there is one,
      listing the guests of that event from `guests`; every other event is as it was. */
  predicate GuestListRefreshed(before: seq<Event>, after: seq<Event>, eventId: string, guests: seq<Guest>) {
    && |after| == |before|
    && match EventIndex(before, eventId)
       case None => after == before
       case Some(k) =>
         && after[k] == before[k].(guests := GuestsOf(guests, eventId))
         && forall i :: 0 <= i < |before| && i != k ==> after[i] == before[i]
  }

  /** As `GuestListRefreshed`, for the event's RSVP list. */
  predicate RSVPListRefreshed(before: seq<Event>, after: seq<Event>, eventId: string, rsvps: seq<RSVP>) {
    && |after| == |before|
    && match EventIndex(before, eventId)
       case None => after == before
       case Some(k) =>
         && after[k] == before[k].(rsvps := RSVPsOf(rsvps, eventId))
         && forall i :: 0 <= i < |before| && i != k ==> after[i] == before[i]
  }

  /** `clearGuestForm`. */
  function ClearGuestForm(s: Store): (t: Store)
    ensures t.form.name == "" && t.form.phone == "" && t.form.email == ""
    ensures t.(form := s.form) == s
  {
    s.(form := EmptyGuestForm)
  }

  /** `updateEventGuestList`: the first event with that id gets the store's guests of
      that event as its guest list; nothing else changes, and an unknown id changes
      nothing at all. */
  function UpdateEventGuestList(s: Store, eventId: string): (t: Store)
    ensures t == s.(events := t.events)
    ensures t.guests == s.guests && t.rsvps == s.rsvps && t.form == s.form
    ensures t.selectedEvent == s.selectedEvent && |t.events| == |s.events|
    ensures EventIndex(s.events, eventId).None? ==> t == s
    ensures EventIndex(s.events, eventId).Some? ==>
              var k := EventIndex(s.events, eventId).value;
              && t.events[k] == s.events[k].(guests := GuestsOf(s.guests, eventId))
              && forall i :: 0 <= i < |s.events| && i != k ==> t.events[i] == s.events[i]
  {
    match EventIndex(s.events, eventId)
    case None => s
    case Some(k) => s.(events := s.events[k := s.events[k].(guests := GuestsOf(s.guests, eventId))])
  }

  /** `updateEventRSVPList`: as `UpdateEventGuestList`, for the RSVP list. */
  function UpdateEventRSVPList(s: Store, eventId: string): (t: Store)
    ensures t == s.(events := t.events)
    ensures t.guests == s.guests && t.rsvps == s.rsvps && t.form == s.form
    ensures t.selectedEvent == s.selectedEvent && |t.events| == |s.events|
    ensures EventIndex(s.events, eventId).None? ==> t == s
    ensures EventIndex(s.events, eventId).Some? ==>
              var k := EventIndex(s.events, eventId).value;
              && t.events[k] == s.events[k].(rsvps := RSVPsOf(s.rsvps, eventId))
              && forall i :: 0 <= i < |s.events| && i != k ==> t.events[i] == s.events[i]
  {
    match EventIndex(s.events, eventId)
    case None => s
    case Some(k) => s.(events := s.events[k := s.events[k].(rsvps := RSVPsOf(s.rsvps, eventId))])
  }

  /** `addGuest(to:)`: with a name and a phone in the form, appends one new guest of
      that event (no email when the email field is empty), refreshes the event's guest
      list and clears the form; otherwise does nothing. */
  function AddGuest(s: Store, eventId: string, newId: string, now: int): (t: Store)
    ensures t == s.(guests := t.guests, form := t.form, events := t.events)
    ensures s.form.name == "" || s.form.phone == "" ==> t == s
    ensures s.form.name != "" && s.form.phone != "" ==>
              && |t.guests| == |s.guests| + 1
              && t.guests[..|s.guests|] == s.guests
              && t.guests[|s.guests|] == NewGuest(newId, s.form.name, s.form.phone,
                                                  if s.form.email == "" then None else Some(s.form.email),
                                                  eventId, now)
              && t.form == EmptyGuestForm
              && t.rsvps == s.rsvps
              && t.selectedEvent == s.selectedEvent
              && GuestListRefreshed(s.events, t.events, eventId, t.guests)
  {
    if s.form.name == "" || s.form.phone == "" then s
    else
      var email := if s.form.email == "" then None else Some(s.form.email);
      var guest := NewGuest(newId, s.form.name, s.form.phone, email, eventId, now);
      var s1 := s.(guests := s.guests + [guest]);
      assert (s.guests + [guest])[..|s.guests|] == s.guests;
      ClearGuestForm(UpdateEventGuestList(s1, eventId))
  }

  /** After an added guest, the event it was added to lists that guest last. */
  lemma AddGuestListedOnEvent(s: Store, eventId: string, newId: string, now: int)
    requires s.form.name != "" && s.form.phone != ""
    requires EventIndex(s.events, eventId).Some?
    ensures var t := AddGuest(s, eventId, newId, now);
            var k := EventIndex(s.events, eventId).value;
            && t.events[k].guests == GuestsOf(s.guests, eventId) + [t.guests[|s.guests|]]
            && t.events[k].guests[|t.events[k].guests| - 1].id == newId
  {
    var t := AddGuest(s, eventId, newId, now);
    var g := t.guests[|s.guests|];
    assert t.guests == s.guests + [g];
    Seqs.FilterAppend(s.guests, [g], (x: Guest) => x.eventId == eventId);
  }

  /** `removeGuest`: drops every guest with that id and keeps the others in order;
      only the selected event's guest list is refreshed. */
  function RemoveGuest(s: Store, guest: Guest): (t: Store)
    ensures t == s.(guests := t.guests, events := t.events)
    ensures t.guests == Seqs.Filter(s.guests, (g: Guest) => g.id != guest.id)
    ensures forall i :: 0 <= i < |t.guests| ==> t.guests[i].id != guest.id
    ensures forall i :: 0 <= i < |s.guests| && s.guests[i].id != guest.id ==> s.guests[i] in t.guests
    ensures t.rsvps == s.rsvps && t.form == s.form && t.selectedEvent == s.selectedEvent
    ensures s.selectedEvent.None? ==> t.events == s.events
    ensures s.selectedEvent.Some? ==> GuestListRefreshed(s.events, t.events, s.selectedEvent.value.id, t.guests)
  {
    var s1 := s.(guests := Seqs.Filter(s.guests, (g: Guest) => g.id != guest.id));
    match s.selectedEvent
    case None => s1
    case Some(e) => UpdateEventGuestList(s1, e.id)
  }

  /** The guests made from imported rows, in order: the `i`-th row becomes a guest of
      `eventId` with the id `ids(i)`. */
  function GuestsFromRows(rows: seq<GuestImportData>, eventId: string, ids: nat -> string, now: int): (gs: seq<Guest>)
    ensures |gs| == |rows|
    ensures forall i :: 0 <= i < |rows| ==>
              gs[i] == NewGuest(ids(i), rows[i].name, rows[i].phoneNumber, rows[i].email, eventId, now)
  {
    seq(|rows|, i requires 0 <= i < |rows| =>
      NewGuest(ids(i), rows[i].name, rows[i].phoneNumber, rows[i].email, eventId, now))
  }

  /** `importGuestsFromCSV(_:to:)`: appends one guest of the event per parsed row, in row
      order, refreshes the event's guest list and remembers the parsed rows. The
      `UUID()` of each new guest is `ids(i)`. */
  function ImportGuestsFromCSV(s: Store, csv: string, eventId: string, ids: nat -> string, now: int): (t: Store)
    ensures t == s.(guests := t.guests, events := t.events, importedGuests := t.importedGuests)
    ensures var rows := ParseCSV(csv);
            && |t.guests| == |s.guests| + |rows|
            && t.guests[..|s.guests|] == s.guests
            && (forall i :: 0 <= i < |rows| ==>
                  t.guests[|s.guests| + i] == NewGuest(ids(i), rows[i].name, rows[i].phoneNumber, rows[i].email, eventId, now))
            && t.importedGuests == rows
    ensures forall i :: |s.guests| <= i < |t.guests| ==>
              t.guests[i].eventId == eventId && t.guests[i].name != [] && t.guests[i].phoneNumber != []
    ensures t.rsvps == s.rsvps && t.form == s.form && t.selectedEvent == s.selectedEvent
    ensures GuestListRefreshed(s.events, t.events, eventId, t.guests)
  {
    AddImportedRows(s, ParseCSV(csv), eventId, ids, now)
  }

  /** The store after appending the guests made from `rows` and refreshing the
      event's guest list. */
  function AddImportedRows(s: Store, rows: seq<GuestImportData>, eventId: string, ids: nat -> string, now: int): (t: Store)
    ensures t == s.(guests := t.guests, events := t.events, importedGuests := rows)
    ensures |t.guests| == |s.guests| + |rows| && t.guests[..|s.guests|] == s.guests
    ensures forall i :: 0 <= i < |rows| ==>
              t.guests[|s.guests| + i] == NewGuest(ids(i), rows[i].name, rows[i].phoneNumber, rows[i].email, eventId, now)
    ensures GuestListRefreshed(s.events, t.events, eventId, t.guests)
    ensures (forall i :: 0 <= i < |rows| ==> rows[i].name != [] && rows[i].phoneNumber != []) ==>
              forall i :: |s.guests| <= i < |t.guests| ==>
                t.guests[i].eventId == eventId && t.guests[i].name != [] && t.guests[i].phoneNumber != []
  {
    var added := GuestsFromRows(rows, eventId, ids, now);
    var t := UpdateEventGuestList(s.(guests := s.guests + added, importedGuests := rows), eventId);
    assert t.guests[..|s.guests|] == s.guests;
    assert forall i :: 0 <= i < |rows| ==> t.guests[|s.guests| + i] == added[i];
    t
  }

  /** After an import, the event lists its earlier guests followed by every imported
      guest, in row order. */
  lemma ImportListedOnEvent(s: Store, csv: string, eventId: string, ids: nat -> string, now: int)
    requires EventIndex(s.events, eventId).Some?
    ensures var t := ImportGuestsFromCSV(s, csv, eventId, ids, now);
            var k := EventIndex(s.events, eventId).value;
            t.events[k].guests == GuestsOf(s.guests, eventId) + t.guests[|s.guests|..]
  {
    var t := ImportGuestsFromCSV(s, csv, eventId, ids, now);
    var added := t.guests[|s.guests|..];
    assert t.guests == s.guests + added;
    var p := (g: Guest) => g.eventId == eventId;
    Seqs.FilterAppend(s.guests, added, p);
    Seqs.FilterAll(added, p);
  }

  /** Text without a line break is a header only: the import adds nobody. */
  lemma ImportHeaderOnly(s: Store, csv: string, eventId: string, ids: nat -> string, now: int)
    requires forall i :: 0 <= i < |csv| ==> !Text.IsNewline(csv[i])
    ensures var t := ImportGuestsFromCSV(s, csv, eventId, ids, now);
            t.guests == s.guests && t.importedGuests == []
  {
    ParseCSVHeaderOnly(csv);
  }

  /** `updateEvent`: the first event with that id is replaced, and so is the selected
      event when it has that id; an event the list does not hold changes nothing. */
  function UpdateEvent(s: Store, event: Event): (t: Store)
    ensures t == s.(events := t.events, selectedEvent := t.selectedEvent)
    ensures EventIndex(s.events, event.id).None? ==> t == s
    ensures EventIndex(s.events, event.id).Some? ==>
              var k := EventIndex(s.events, event.id).value;
              && |t.events| == |s.events| && t.events[k] == event
              && (forall i :: 0 <= i < |s.events| && i != k ==> t.events[i] == s.events[i])
              && t.selectedEvent == if s.selectedEvent.Some? && s.selectedEvent.value.id == event.id
                                    then Some(event) else s.selectedEvent
    ensures t.guests == s.guests && t.rsvps == s.rsvps && t.form == s.form
    ensures t.importedGuests == s.importedGuests
  {
    match EventIndex(s.events, event.id)
    case None => s
    case Some(k) =>
      var selected := if s.selectedEvent.Some? && s.selectedEvent.value.id == event.id
                      then Some(event) else s.selectedEvent;
      s.(events := s.events[k := event], selectedEvent := selected)
  }

  /** After an update, looking the event up by its id finds the new version at the
      same place, and updating again changes nothing. */
  lemma UpdateEventFound(s: Store, event: Event)
    ensures var t := UpdateEvent(s, event);
            && EventIndex(t.events, event.id) == EventIndex(s.events, event.id)
            && (EventIndex(t.events, event.id).Some? ==> t.events[EventIndex(t.events, event.id).value] == event)
            && UpdateEvent(t, event) == t
  {
    var t := UpdateEvent(s, event);
    match EventIndex(s.events, event.id)
    case None =>
    case Some(k) =>
      assert t.events[k].id == event.id;
      forall j | 0 <= j < k ensures t.events[j].id != event.id {
        assert t.events[j] == s.events[j];
      }
      assert EventIndex(t.events, event.id) == Some(k);
      assert t.events[k := event] == t.events;
  }

  /** `deleteEvent`: removes every event with that id, keeping the others in order,
      and clears the selection when it has that id. */
  function DeleteEvent(s: Store, event: Event): (t: Store)
    ensures t == s.(events := t.events, selectedEvent := t.selectedEvent)
    ensures t.events == Seqs.Filter(s.events, (e: Event) => e.id != event.id)
    ensures forall i :: 0 <= i < |t.events| ==> t.events[i].id != event.id && t.events[i] in s.events
    ensures forall i :: 0 <= i < |s.events| && s.events[i].id != event.id ==> s.events[i] in t.events
    ensures t.selectedEvent == if s.selectedEvent.Some? && s.selectedEvent.value.id == event.id
                               then None else s.selectedEvent
    ensures t.guests == s.guests && t.rsvps == s.rsvps && t.form == s.form
    ensures t.importedGuests == s.importedGuests
  {
    var selected := if s.selectedEvent.Some? && s.selectedEvent.value.id == event.id
                    then None else s.selectedEvent;
    s.(events := Seqs.Filter(s.events, (e: Event) => e.id != event.id), selectedEvent := selected)
  }

  /** A deleted event is gone for good: deleting it again, or updating it, changes
      nothing. */
  lemma DeleteEventFinal(s: Store, event: Event)
    ensures var t := DeleteEvent(s, event);
            && EventIndex(t.events, event.id).None?
            && DeleteEvent(t, event) == t
            && UpdateEvent(t, event) == t
  {
    var t := DeleteEvent(s, event);
    Seqs.FilterAll(t.events, (e: Event) => e.id != event.id);
  }

  /** `generateQRCode` of the view model: "QR_" and the first eight characters of a
      UUID string. */
  function GeneratedCode(uuid: string): (code: string)
    ensures 3 <= |code| <= 11 && code[..3] == "QR_"
    ensures |uuid| >= 8 ==> code == "QR_" + uuid[..8]
  {
    "QR_" + (if |uuid| <= 8 then uuid else uuid[..8])
  }

  /** Where `first(where: { $0.id == guestId })` lands among the guests. */
  function GuestIndex(guests: seq<Guest>, guestId: string): Option<nat> {
    Seqs.FirstIndex(guests, (g: Guest) => g.id == guestId)
  }

  /** The RSVPs of every guest other than `guestId`, in order. */
  function OtherGuestsRSVPs(rsvps: seq<RSVP>, guestId: string): seq<RSVP> {
    Seqs.Filter(rsvps, (r: RSVP) => r.guestId != guestId)
  }

  /** `processRSVP`: for a known guest, replaces whatever RSVP the guest had with a new
      one appended last, carrying a fresh code only for a "yes"; an unknown guest
      changes nothing. The event id is taken as given and not compared with the
      guest's own event. */
  function ProcessRSVP(s: Store, guestId: string, eventId: string, status: RSVPStatus,
                       message: Option<string>, newId: string, uuid: string, now: int): (t: Store)
    ensures t == s.(rsvps := t.rsvps, events := t.events)
    ensures GuestIndex(s.guests, guestId).None? ==> t == s
    ensures GuestIndex(s.guests, guestId).Some? ==>
              var g := s.guests[GuestIndex(s.guests, guestId).value];
              |t.rsvps| >= 1 &&
              var r := t.rsvps[|t.rsvps| - 1];
              && (forall i :: 0 <= i < |t.rsvps| - 1 ==> t.rsvps[i].guestId != guestId)
              && OtherGuestsRSVPs(t.rsvps, guestId) == OtherGuestsRSVPs(s.rsvps, guestId)
              && r.id == newId && r.guestId == guestId && r.eventId == eventId && r.status == status
              && r.message == message
              && (r.qrCode.Some? <==> status == Yes)
              && (status == Yes ==> r.qrCode == Some(GeneratedCode(uuid)))
              && !r.qrCodeUsed && r.qrCodeUsedAt.None?
              && r.guestName == g.name && r.guestPhone == g.phoneNumber
              && t.guests == s.guests && t.form == s.form
              && t.selectedEvent == s.selectedEvent
              && RSVPListRefreshed(s.events, t.events, eventId, t.rsvps)
  {
    match GuestIndex(s.guests, guestId)
    case None => s
    case Some(k) =>
      var g := s.guests[k];
      var rsvp := NewRSVP(newId, guestId, eventId, status, message,
                          if status == Yes then Some(GeneratedCode(uuid)) else None,
                          g.name, g.phoneNumber, now);
      var kept := OtherGuestsRSVPs(s.rsvps, guestId);
      ProcessRSVPShape(s.rsvps, guestId, rsvp);
      UpdateEventRSVPList(s.(rsvps := kept + [rsvp]), eventId)
  }

  /** Dropping a guest's RSVPs and appending a new one for the guest leaves the other
      guests' RSVPs as they were. */
  lemma ProcessRSVPShape(rsvps: seq<RSVP>, guestId: string, rsvp: RSVP)
    requires rsvp.guestId == guestId
    ensures var t := OtherGuestsRSVPs(rsvps, guestId) + [rsvp];
            && (forall i :: 0 <= i < |t| - 1 ==> t[i].guestId != guestId)
            && OtherGuestsRSVPs(t, guestId) == OtherGuestsRSVPs(rsvps, guestId)
  {
    var kept := OtherGuestsRSVPs(rsvps, guestId);
    var p := (r: RSVP) => r.guestId != guestId;
    Seqs.FilterAppend(kept, [rsvp], p);
    Seqs.FilterAll(kept, p);
    assert Seqs.Filter([rsvp], p) == [];
  }

  /** Where `first(where: { $0.qrCode == qrCode })` lands among the RSVPs. */
  function CodeIndex(rsvps: seq<RSVP>, code: string): Option<nat> {
    Seqs.FirstIndex(rsvps, (r: RSVP) => r.qrCode == Some(code))
  }

  /** Where `firstIndex(where: { $0.id == rsvpId })` lands among the RSVPs. */
  function RSVPIndex(rsvps: seq<RSVP>, rsvpId: string): Option<nat> {
    Seqs.FirstIndex(rsvps, (r: RSVP) => r.id == rsvpId)
  }

  /** `validateQRCode`: a code no RSVP carries is invalid; otherwise the first RSVP
      carrying it decides between already used and success. The scanning event plays
      no part. */
  function ValidateQRCode(s: Store, code: string): (r: QRScanResult)
    ensures WellFormed(r)
    ensures CodeIndex(s.rsvps, code).None? <==> r == Invalid(InvalidCodeMessage)
    ensures CodeIndex(s.rsvps, code).Some? ==>
              var x := s.rsvps[CodeIndex(s.rsvps, code).value];
              && r.rsvpId == x.id && r.eventId == x.eventId && r.guestName == x.guestName
              && (Kind(r) == Some(Used) <==> x.qrCodeUsed)
              && (Kind(r) == Some(Admitted) <==> !x.qrCodeUsed)
              && r.errorMessage == if x.qrCodeUsed then Some(AlreadyUsedMessage) else None
  {
    match CodeIndex(s.rsvps, code)
    case None => Invalid(InvalidCodeMessage)
    case Some(k) =>
      var x := s.rsvps[k];
      if x.qrCodeUsed then AlreadyUsed(x.id, x.eventId, x.guestName)
      else Success(x.id, x.eventId, x.guestName)
  }

  /** `markQRCodeAsUsed`: sets the flag and the time on the first RSVP with that id, an
      unknown id being a no-op. It never clears a flag, and it overwrites the time of
      an RSVP that was already used. */
  function MarkQRCodeAsUsed(s: Store, rsvpId: string, now: int): (t: Store)
    ensures t == s.(rsvps := t.rsvps)
    ensures t.events == s.events && t.guests == s.guests && t.form == s.form
    ensures t.selectedEvent == s.selectedEvent
    ensures |t.rsvps| == |s.rsvps|
    ensures RSVPIndex(s.rsvps, rsvpId).None? ==> t == s
    ensures RSVPIndex(s.rsvps, rsvpId).Some? ==>
              var k := RSVPIndex(s.rsvps, rsvpId).value;
              && t.rsvps[k] == s.rsvps[k].(qrCodeUsed := true, qrCodeUsedAt := Some(now))
              && forall i :: 0 <= i < |s.rsvps| && i != k ==> t.rsvps[i] == s.rsvps[i]
    ensures forall i :: 0 <= i < |s.rsvps| && s.rsvps[i].qrCodeUsed ==> t.rsvps[i].qrCodeUsed
  {
    match RSVPIndex(s.rsvps, rsvpId)
    case None => s
    case Some(k) => s.(rsvps := s.rsvps[k := s.rsvps[k].(qrCodeUsed := true, qrCodeUsedAt := Some(now))])
  }

  // ---------------------------------------------------------------------------
  // Store invariant

  /** RSVP ids are distinct (they come from `UUID()`). */
  predicate UniqueRSVPIds(rsvps: seq<RSVP>) {
    forall i, j :: 0 <= i < j < |rsvps| ==> rsvps[i].id != rsvps[j].id
  }

  /** The record-level rules of check-in: only a "yes" carries a code, only a code can
      be used, and a used record has a use time and vice versa. */
  predicate RSVPConsistent(r: RSVP) {
    && (r.qrCode.Some? ==> r.status == Yes)
    && (r.qrCodeUsed ==> r.qrCode.Some?)
    && CheckInConsistent(r)
  }

  /** At most one RSVP per guest, distinct ids, and every record consistent. */
  predicate Valid(s: Store) {
    && UniqueRSVPIds(s.rsvps)
    && (forall i, j :: 0 <= i < j < |s.rsvps| ==> s.rsvps[i].guestId != s.rsvps[j].guestId)
    && (forall i :: 0 <= i < |s.rsvps| ==> RSVPConsistent(s.rsvps[i]))
  }

  /** Recording an RSVP with a fresh id keeps the store valid. */
  lemma ProcessRSVPPreservesValid(s: Store, guestId: string, eventId: string, status: RSVPStatus,
                                  message: Option<string>, newId: string, uuid: string, now: int)
    requires Valid(s)
    requires forall i :: 0 <= i < |s.rsvps| ==> s.rsvps[i].id != newId
    ensures Valid(ProcessRSVP(s, guestId, eventId, status, message, newId, uuid, now))
  {
    var t := ProcessRSVP(s, guestId, eventId, status, message, newId, uuid, now);
    if GuestIndex(s.guests, guestId).Some? {
      var kept := OtherGuestsRSVPs(s.rsvps, guestId);
      var n := |t.rsvps|;
      assert t.rsvps[..n - 1] == kept by {
        var k := GuestIndex(s.guests, guestId).value;
        var g := s.guests[k];
        var rsvp := NewRSVP(newId, guestId, eventId, status, message,
                            if status == Yes then Some(GeneratedCode(uuid)) else None,
                            g.name, g.phoneNumber, now);
        assert t.rsvps == kept + [rsvp];
      }
      SubsequenceKeepsValid(s.rsvps, guestId);
      forall i, j | 0 <= i < j < n
        ensures t.rsvps[i].id != t.rsvps[j].id && t.rsvps[i].guestId != t.rsvps[j].guestId
      {
        if j == n - 1 {
          assert t.rsvps[i] == kept[i];
          assert kept[i] in s.rsvps;
        } else {
          assert t.rsvps[i] == kept[i] && t.rsvps[j] == kept[j];
        }
      }
      forall i | 0 <= i < n ensures RSVPConsistent(t.rsvps[i]) {
        if i < n - 1 {
          assert t.rsvps[i] == kept[i];
          assert kept[i] in s.rsvps;
        }
      }
    }
  }

  /** The RSVPs kept by `OtherGuestsRSVPs` still have distinct ids and guests. */
  lemma {:induction false} SubsequenceKeepsValid(rsvps: seq<RSVP>, guestId: string)
    requires UniqueRSVPIds(rsvps)
    requires forall i, j :: 0 <= i < j < |rsvps| ==> rsvps[i].guestId != rsvps[j].guestId
    ensures var kept := OtherGuestsRSVPs(rsvps, guestId);
            && UniqueRSVPIds(kept)
            && forall i, j :: 0 <= i < j < |kept| ==> kept[i].guestId != kept[j].guestId
    decreases |rsvps|
  {
    if |rsvps| > 0 {
      SubsequenceKeepsValid(rsvps[1..], guestId);
      var rest := OtherGuestsRSVPs(rsvps[1..], guestId);
      forall i | 0 <= i < |rest| ensures rest[i].id != rsvps[0].id && rest[i].guestId != rsvps[0].guestId {
        assert rest[i] in rsvps[1..];
      }
    }
  }

  /** Guest edits leave the RSVPs, and so the store's validity, untouched. */
  lemma GuestEditsPreserveValid(s: Store, eventId: string, newId: string, now: int, guest: Guest,
                                csv: string, ids: nat -> string)
    requires Valid(s)
    ensures Valid(AddGuest(s, eventId, newId, now))
    ensures Valid(RemoveGuest(s, guest))
    ensures Valid(ImportGuestsFromCSV(s, csv, eventId, ids, now))
  {
  }
}

=== FILE: guest.dfy ===
/** Guests, their phone numbers as sent to WhatsApp, and the CSV guest import
    (Models/Guest.swift). */
module Guests {
  import opened Wrappers
  import Seqs
  import Text

  datatype Guest = Guest(
    id: string,
    name: string,
    phoneNumber: string,
    email: Option<string>,
    eventId: string,
    rsvpLink: Option<string>,
    qrCode: Option<string>,
    hasOpened: bool,
    invitationSentAt: Option<int>,
    createdAt: int)

  /** The Guest initializer with its defaults; `now` stands for `Date()`. */
  function NewGuest(id: string, name: string, phoneNumber: string, email: Option<string>,
                    eventId: string, now: int): (g: Guest)
    ensures g.id == id && g.name == name && g.phoneNumber == phoneNumber
    ensures g.email == email && g.eventId == eventId
    ensures !g.hasOpened && g.invitationSentAt.None? && g.rsvpLink.None? && g.qrCode.None?
  {
    Guest(id, name, phoneNumber, email, eventId, None, None, false, None, now)
  }

  // ---------------------------------------------------------------------------
  // Phone numbers

  /** The characters stripped from a phone number before it is sent. */
  predicate IsPhoneSeparator(c: char) {
    c == ' ' || c == '-' || c == '(' || c == ')'
  }

  /** `replacingOccurrences(of: [c], with: "")`. */
  function RemoveAll(s: string, c: char): string {
    Seqs.Filter(s, x => x != c)
  }

  /** The four successive replacements of `formattedPhoneNumber`. */
  function Cleaned(phone: string): string {
    RemoveAll(RemoveAll(RemoveAll(RemoveAll(phone, ' '), '-'), '('), ')')
  }

  /** The Kuwaiti country code assumed for numbers written without one. */
  const DefaultCountryCode: string := "+965"

  /** `formattedPhoneNumber`: the number without separators, with "+965" in front when
      it does not already start with '+'. Stated against a one-pass filter of the
      separators rather than the four replacements. */
  function FormattedPhoneNumber(phone: string): (r: string)
    ensures forall i :: 0 <= i < |r| ==> !IsPhoneSeparator(r[i])
    ensures |r| > 0 && r[0] == '+'
    ensures var kept := Seqs.Filter(phone, x => !IsPhoneSeparator(x));
            if |kept| > 0 && kept[0] == '+' then r == kept else r == DefaultCountryCode + kept
  {
    CleanedIsFilter(phone);
    var cleaned := Cleaned(phone);
    if |cleaned| > 0 && cleaned[0] == '+' then cleaned else DefaultCountryCode + cleaned
  }

  /** The four replacements remove exactly the separator characters. */
  lemma CleanedIsFilter(phone: string)
    ensures Cleaned(phone) == Seqs.Filter(phone, x => !IsPhoneSeparator(x))
  {
    var p1, p2, p3, p4 := (x: char) => x != ' ', (x: char) => x != '-', (x: char) => x != '(', (x: char) => x != ')';
    var q2 := (x: char) => x != ' ' && x != '-';
    var q3 := (x: char) => x != ' ' && x != '-' && x != '(';
    var q4 := (x: char) => !IsPhoneSeparator(x);
    Seqs.FilterFilter(phone, p1, p2, q2);
    Seqs.FilterFilter(phone, q2, p3, q3);
    Seqs.FilterFilter(phone, q3, p4, q4);
  }

  /** Formatting an already formatted number changes nothing. */
  lemma FormattedPhoneNumberIdempotent(phone: string)
    ensures FormattedPhoneNumber(FormattedPhoneNumber(phone)) == FormattedPhoneNumber(phone)
  {
    var f := FormattedPhoneNumber(phone);
    Seqs.FilterAll(f, x => !IsPhoneSeparator(x));
  }

  predicate IsDigit(c: char) {
    '0' <= c <= '9'
  }

  predicate AllDigits(s: string) {
    forall i :: 0 <= i < |s| ==> IsDigit(s[i])
  }

  /** The pattern `^\+[1-9]\d{1,14}$`: a '+', a leading digit other than zero, then
      one to fourteen more digits, so at most the fifteen digits that ITU-T
      Recommendation E.164 allows. */
  predicate MatchesE164Pattern(s: string) {
    3 <= |s| <= 16 && s[0] == '+' && '1' <= s[1] <= '9' && AllDigits(s[2..])
  }

  /** `isValidPhoneNumber`: the formatted number matches the pattern. */
  predicate IsValidPhoneNumber(phone: string) {
    MatchesE164Pattern(FormattedPhoneNumber(phone))
  }

  /** For a number written without a leading '+', validity means the digits left after
      removing separators are all decimal digits and at most twelve of them (the other
      three of the fifteen are taken by the 965 country code). */
  lemma ValidLocalNumber(phone: string)
    requires var kept := Seqs.Filter(phone, x => !IsPhoneSeparator(x)); |kept| == 0 || kept[0] != '+'
    ensures IsValidPhoneNumber(phone) <==>
              var kept := Seqs.Filter(phone, x => !IsPhoneSeparator(x));
              |kept| <= 12 && AllDigits(kept)
  {
    var kept := Seqs.Filter(phone, x => !IsPhoneSeparator(x));
    assert FormattedPhoneNumber(phone) == DefaultCountryCode + kept;
    CountryCodePrefixMatches(kept);
  }

  /** "+965" followed by `k` matches the pattern iff `k` is at most twelve digits. */
  lemma CountryCodePrefixMatches(k: string)
    ensures MatchesE164Pattern(DefaultCountryCode + k) <==> |k| <= 12 && AllDigits(k)
  {
    var f := DefaultCountryCode + k;
    assert f[0] == '+' && f[1] == '9';
    assert f[2..] == "65" + k;
    if AllDigits(f[2..]) {
      forall i | 0 <= i < |k| ensures IsDigit(k[i]) {
        assert k[i] == f[2..][i + 2];
      }
    }
  }

  /** For a number written with a leading '+', validity is the pattern applied to the
      number with its separators removed. */
  lemma ValidInternationalNumber(phone: string)
    requires var kept := Seqs.Filter(phone, x => !IsPhoneSeparator(x)); |kept| > 0 && kept[0] == '+'
    ensures IsValidPhoneNumber(phone) <==> MatchesE164Pattern(Seqs.Filter(phone, x => !IsPhoneSeparator(x)))
  {
  }

  /** A number made only of separators (or an empty one) formats to the bare country
      code "+965", which the pattern accepts. */
  lemma CountryCodeAloneIsValid(phone: string)
    requires forall i :: 0 <= i < |phone| ==> IsPhoneSeparator(phone[i])
    ensures FormattedPhoneNumber(phone) == DefaultCountryCode
    ensures IsValidPhoneNumber(phone)
  {
    Seqs.FilterNone(phone, x => !IsPhoneSeparator(x));
    assert DefaultCountryCode + [] == DefaultCountryCode;
    CountryCodePrefixMatches([]);
  }

  // ---------------------------------------------------------------------------
  // CSV import

  datatype GuestImportData = GuestImportData(name: string, phoneNumber: string, email: Option<string>)

  /** `components(separatedBy: .newlines)`. */
  function Lines(csv: string): seq<string> {
    Text.Split(csv, Text.IsNewline)
  }

  /** `components(separatedBy: ",")`. */
  function Columns(line: string): seq<string> {
    Text.Split(line, c => c == ',')
  }

  /** A field with no whitespace or newline at either end. */
  predicate FieldTrimmed(s: string) {
    Text.Trimmed(s, Text.IsSwiftWhitespace)
  }

  function TrimField(s: string): string {
    Text.Trim(s, Text.IsSwiftWhitespace)
  }

  lemma TrimFieldOfTrimmed(s: string)
    requires FieldTrimmed(s)
    ensures TrimField(s) == s
  {
    Text.TrimTrimmed(s, Text.IsSwiftWhitespace);
  }

  /** A data row's columns: at least two, with a non-empty trimmed name and phone;
      the email is the trimmed third column whenever there is one, even when it is
      empty. */
  function RowOfColumns(columns: seq<string>): (r: Option<GuestImportData>)
    ensures r.Some? <==> |columns| >= 2 && TrimField(columns[0]) != [] && TrimField(columns[1]) != []
    ensures r.Some? ==> r.value.name == TrimField(columns[0]) && r.value.phoneNumber == TrimField(columns[1])
    ensures r.Some? ==> r.value.email == if |columns| >= 3 then Some(TrimField(columns[2])) else None
    ensures r.Some? ==> r.value.name != [] && r.value.phoneNumber != []
    ensures r.Some? ==> |columns| >= 2 && (r.value.email.Some? <==> |columns| >= 3)
    ensures r.Some? ==> TrimField(r.value.name) == r.value.name
    ensures r.Some? ==> TrimField(r.value.phoneNumber) == r.value.phoneNumber
  {
    if |columns| >= 2 then
      var name := TrimField(columns[0]);
      var phone := TrimField(columns[1]);
      var email := if |columns| > 2 then Some(TrimField(columns[2])) else None;
      TrimIdempotentField(columns[0]);
      TrimIdempotentField(columns[1]);
      if name != [] && phone != [] then Some(GuestImportData(name, phone, email)) else None
    else None
  }

  /** One line of the import, split at its commas. */
  function ParseRow(line: string): (r: Option<GuestImportData>)
    ensures var cols := Columns(line);
            r.Some? <==> |cols| >= 2 && TrimField(cols[0]) != [] && TrimField(cols[1]) != []
    ensures var cols := Columns(line);
            r.Some? ==> r.value.name == TrimField(cols[0]) && r.value.phoneNumber == TrimField(cols[1])
    ensures var cols := Columns(line);
            r.Some? ==> r.value.email == if |cols| >= 3 then Some(TrimField(cols[2])) else None
    ensures r.Some? ==> r.value.name != [] && r.value.phoneNumber != []
    ensures r.Some? ==> |Columns(line)| >= 2 && (r.value.email.Some? <==> |Columns(line)| >= 3)
    ensures r.Some? ==> TrimField(r.value.name) == r.value.name
    ensures r.Some? ==> TrimField(r.value.phoneNumber) == r.value.phoneNumber
  {
    RowOfColumns(Columns(line))
  }

  lemma TrimIdempotentField(s: string)
    ensures TrimField(TrimField(s)) == TrimField(s)
  {
    Text.TrimIdempotent(s, Text.IsSwiftWhitespace);
  }

  /** `GuestImportData.parseCSV`: the first line is always dropped as a header, and
      the rows that parse are kept in input order. */
  function ParseCSV(csv: string): (r: seq<GuestImportData>)
    ensures |r| <= |Lines(csv)| - 1
    ensures forall i :: 0 <= i < |r| ==> r[i].name != [] && r[i].phoneNumber != []
  {
    var rows := Lines(csv)[1..];
    Seqs.CollectKeeps(rows, ParseRow, (g: GuestImportData) => g.name != [] && g.phoneNumber != []);
    Seqs.Collect(rows, ParseRow)
  }

  /** Importing grows line by line: a further line contributes its own row, if it parses,
      after the rows already imported, and never disturbs them. */
  lemma ParseCSVAppendLine(csv: string, nl: char, line: string)
    requires Text.IsNewline(nl)
    requires forall i :: 0 <= i < |line| ==> !Text.IsNewline(line[i])
    ensures ParseCSV(csv + [nl] + line) == ParseCSV(csv) + Seqs.OptionToSeq(ParseRow(line))
  {
    var ls := Lines(csv);
    LinesAppendLine(csv, nl, line);
    assert Lines(csv + [nl] + line)[1..] == ls[1..] + [line];
    Seqs.CollectAppend(ls[1..], [line], ParseRow);
    Seqs.CollectSingleton(line, ParseRow);
  }

  /** A further line break and a line without breaks add that line to the lines. */
  lemma LinesAppendLine(csv: string, nl: char, line: string)
    requires Text.IsNewline(nl)
    requires forall i :: 0 <= i < |line| ==> !Text.IsNewline(line[i])
    ensures Lines(csv + [nl] + line) == Lines(csv) + [line]
  {
    Text.SplitAppend(csv, nl, line, Text.IsNewline);
    SplitOfPlain(line, Text.IsNewline);
  }

  /** A text without any line break is only a header and imports nobody. */
  lemma ParseCSVHeaderOnly(csv: string)
    requires forall i :: 0 <= i < |csv| ==> !Text.IsNewline(csv[i])
    ensures ParseCSV(csv) == []
  {
    Text.SplitShape(csv, Text.IsNewline);
    Seqs.FilterNone(csv, Text.IsNewline);
  }

  /** A row written as "name,phone" or "name,phone,email" from already trimmed fields
      without commas reads back as those fields; the email is kept even when empty. */
  lemma ParseRowOfFields(name: string, phone: string, email: Option<string>)
    requires name != [] && phone != []
    requires FieldTrimmed(name) && FieldTrimmed(phone)
    requires email.Some? ==> FieldTrimmed(email.value)
    requires forall i :: 0 <= i < |name| ==> name[i] != ','
    requires forall i :: 0 <= i < |phone| ==> phone[i] != ','
    requires email.Some? ==> forall i :: 0 <= i < |email.value| ==> email.value[i] != ','
    ensures var line := if email.Some? then name + "," + phone + "," + email.value else name + "," + phone;
            ParseRow(line) == Some(GuestImportData(name, phone, email))
  {
    if email.Some? {
      ParseRowOfThreeFields(name, phone, email.value);
    } else {
      ParseRowOfTwoFields(name, phone);
    }
  }

  lemma ParseRowOfTwoFields(name: string, phone: string)
    requires name != [] && phone != []
    requires FieldTrimmed(name) && FieldTrimmed(phone)
    requires forall i :: 0 <= i < |name| ==> name[i] != ','
    requires forall i :: 0 <= i < |phone| ==> phone[i] != ','
    ensures ParseRow(name + "," + phone) == Some(GuestImportData(name, phone, None))
  {
    TrimFieldOfTrimmed(name);
    TrimFieldOfTrimmed(phone);
    ColumnsOfTwoFields(name, phone);
    assert RowOfColumns([name, phone]) == Some(GuestImportData(name, phone, None));
  }

  lemma ParseRowOfThreeFields(name: string, phone: string, email: string)
    requires name != [] && phone != []
    requires FieldTrimmed(name) && FieldTrimmed(phone) && FieldTrimmed(email)
    requires forall i :: 0 <= i < |name| ==> name[i] != ','
    requires forall i :: 0 <= i < |phone| ==> phone[i] != ','
    requires forall i :: 0 <= i < |email| ==> email[i] != ','
    ensures ParseRow(name + "," + phone + "," + email) == Some(GuestImportData(name, phone, Some(email)))
  {
    ColumnsOfThreeFields(name, phone, email);
    RowOfThreeColumns(name, phone, email);
  }

  lemma RowOfThreeColumns(name: string, phone: string, email: string)
    requires name != [] && phone != []
    requires FieldTrimmed(name) && FieldTrimmed(phone) && FieldTrimmed(email)
    ensures RowOfColumns([name, phone, email]) == Some(GuestImportData(name, phone, Some(email)))
  {
    TrimFieldOfTrimmed(name);
    TrimFieldOfTrimmed(phone);
    TrimFieldOfTrimmed(email);
    var cols := [name, phone, email];
    assert |cols| == 3 && cols[0] == name && cols[1] == phone && cols[2] == email;
  }

  /** A comma-free field, a comma and the rest: the field is the first column and the
      rest's columns follow. */
  lemma ColumnsCons(a: string, rest: string)
    requires forall i :: 0 <= i < |a| ==> a[i] != ','
    ensures Columns(a + "," + rest) == [a] + Columns(rest)
  {
    var sep := (c: char) => c == ',';
    SplitOfPlain(a, sep);
    Text.SplitAppend(a, ',', rest, sep);
    assert a + "," + rest == a + [','] + rest;
  }

  /** Two comma-free fields joined by a comma are two columns. */
  lemma ColumnsOfTwoFields(a: string, b: string)
    requires forall i :: 0 <= i < |a| ==> a[i] != ','
    requires forall i :: 0 <= i < |b| ==> b[i] != ','
    ensures Columns(a + "," + b) == [a, b]
  {
    var sep := (c: char) => c == ',';
    SplitOfPlain(a, sep);
    SplitOfPlain(b, sep);
    Text.SplitAppend(a, ',', b, sep);
    assert a + "," + b == a + [','] + b;
  }

  /** Three comma-free fields joined by commas are three columns. */
  lemma ColumnsOfThreeFields(a: string, b: string, c: string)
    requires forall i :: 0 <= i < |a| ==> a[i] != ','
    requires forall i :: 0 <= i < |b| ==> b[i] != ','
    requires forall i :: 0 <= i < |c| ==> c[i] != ','
    ensures Columns(a + "," + b + "," + c) == [a, b, c]
  {
    var sep := (x: char) => x == ',';
    ColumnsOfTwoFields(a, b);
    SplitOfPlain(c, sep);
    Text.SplitAppend(a + "," + b, ',', c, sep);
    assert a + "," + b + "," + c == (a + "," + b) + [','] + c;
  }

  /** A text without separators is a single component. */
  lemma {:induction false} SplitOfPlain(s: string, sep: char -> bool)
    requires forall i :: 0 <= i < |s| ==> !sep(s[i])
    ensures Text.Split(s, sep) == [s]
    decreases |s|
  {
    if |s| > 0 {
      SplitOfPlain(s[1..], sep);
      assert [s[0]] + s[1..] == s;
    }
  }
}

=== FILE: guest_export.dfy ===
/** The guest-list export of the view model (`exportGuestListToCSV(for:)` in
    ViewModels/EventViewModel.swift), and how it reads back through the CSV import.
    `Date.formatted()` is the parameter `formatDate`. */
module GuestExport {
  import opened Wrappers
  import Seqs
  import Text
  import opened Rsvps
  import opened Guests
  import opened Events
  import opened EventStore

  const HeaderLine: string := "Name,Phone,Email,RSVP Status,Response Time"

  /** No character of `s` is a line break. */
  predicate NoBreak(s: string) {
    forall i :: 0 <= i < |s| ==> !Text.IsNewline(s[i])
  }

  /** No character of `s` is a comma or a line break. */
  predicate PlainField(s: string) {
    forall i :: 0 <= i < |s| ==> s[i] != ',' && !Text.IsNewline(s[i])
  }

  /** `rsvps.first { $0.guestId == guest.id }`, searched over every RSVP of the store,
      not only the event's. */
  function GuestRSVP(rsvps: seq<RSVP>, guestId: string): (r: Option<RSVP>)
    ensures r.Some? ==> r.value in rsvps && r.value.guestId == guestId
    ensures r.None? <==> forall i :: 0 <= i < |rsvps| ==> rsvps[i].guestId != guestId
    ensures r.Some? ==> exists k :: 0 <= k < |rsvps| && rsvps[k] == r.value
                                    && forall j :: 0 <= j < k ==> rsvps[j].guestId != guestId
  {
    match Seqs.FirstIndex(rsvps, (x: RSVP) => x.guestId == guestId)
    case None => None
    case Some(k) =>
      assert rsvps[k] == rsvps[k] && forall j :: 0 <= j < k ==> rsvps[j].guestId != guestId;
      Some(rsvps[k])
  }

  /** The email column: the email, or nothing when there is none. */
  function EmailText(g: Guest): string {
    if g.email.Some? then g.email.value else ""
  }

  /** The status and response-time columns: the RSVP's status label and formatted
      response time, or "Pending" and "N/A" without an RSVP. */
  function AnswerColumns(rsvp: Option<RSVP>, formatDate: int -> string): string {
    if rsvp.Some? then rsvp.value.status.DisplayName() + "," + formatDate(rsvp.value.respondedAt)
    else "Pending,N/A"
  }

  /** One guest's line, without its line break: name, phone, email, then the answer
      columns of the guest's first RSVP. */
  function GuestLine(g: Guest, rsvps: seq<RSVP>, formatDate: int -> string): string {
    g.name + "," + g.phoneNumber + "," + EmailText(g) + "," + AnswerColumns(GuestRSVP(rsvps, g.id), formatDate)
  }

  /** The text the export loop has built after writing the header and then one line
      per guest of `guests`. */
  function ExportLines(guests: seq<Guest>, rsvps: seq<RSVP>, formatDate: int -> string): (r: string)
    ensures |r| > |HeaderLine| && r[..|HeaderLine|] == HeaderLine && r[|r| - 1] == '\n'
    decreases |guests|
  {
    if |guests| == 0 then HeaderLine + "\n"
    else
      var before := ExportLines(guests[..|guests| - 1], rsvps, formatDate);
      var r := before + GuestLine(guests[|guests| - 1], rsvps, formatDate) + "\n";
      assert r[..|HeaderLine|] == before[..|HeaderLine|];
      r
  }

  /** `exportGuestListToCSV(for:)`: the header, then one line per guest of the event,
      in the store's order, each ended by a line break. */
  function ExportGuestListToCSV(s: Store, event: Event, formatDate: int -> string): (r: string)
    ensures |r| > |HeaderLine| && r[..|HeaderLine|] == HeaderLine && r[|r| - 1] == '\n'
  {
    ExportLines(GuestsOf(s.guests, event.id), s.rsvps, formatDate)
  }

  /** A guest whose export line reads back unchanged: a non-empty name and phone, and
      name, phone and any email with no surrounding whitespace, comma or line
      break. */
  predicate Exportable(g: Guest) {
    && g.name != [] && g.phoneNumber != []
    && FieldTrimmed(g.name) && FieldTrimmed(g.phoneNumber) && FieldTrimmed(EmailText(g))
    && PlainField(g.name) && PlainField(g.phoneNumber) && PlainField(EmailText(g))
  }

  /** The import rows an export of `guests` should give back: name, phone, and the
      email column as an email, so a guest without email comes back with an empty
      one. */
  function RowsOf(guests: seq<Guest>): (r: seq<GuestImportData>)
    ensures |r| == |guests|
    decreases |guests|
  {
    if |guests| == 0 then []
    else
      var g := guests[|guests| - 1];
      RowsOf(guests[..|guests| - 1]) + [GuestImportData(g.name, g.phoneNumber, Some(EmailText(g)))]
  }

  /** An exported line has no line break, and the import reads the guest's name,
      phone and email back from it. */
  lemma GuestLineReadsBack(g: Guest, rsvps: seq<RSVP>, formatDate: int -> string)
    requires Exportable(g)
    requires forall t :: NoBreak(formatDate(t))
    ensures NoBreak(GuestLine(g, rsvps, formatDate))
    ensures ParseRow(GuestLine(g, rsvps, formatDate)) == Some(GuestImportData(g.name, g.phoneNumber, Some(EmailText(g))))
  {
    var rsvp := GuestRSVP(rsvps, g.id);
    AnswerColumnsNoBreak(rsvp, formatDate);
    FieldsLineReadsBack(g.name, g.phoneNumber, EmailText(g), AnswerColumns(rsvp, formatDate));
  }

  lemma AnswerColumnsNoBreak(rsvp: Option<RSVP>, formatDate: int -> string)
    requires forall t :: NoBreak(formatDate(t))
    ensures NoBreak(AnswerColumns(rsvp, formatDate))
  {
    if rsvp.Some? {
      var shown := rsvp.value.status.DisplayName();
      assert NoBreak(shown + ",");
      NoBreakAppend(shown + ",", formatDate(rsvp.value.respondedAt));
    }
  }

  lemma NoBreakAppend(a: string, b: string)
    requires NoBreak(a) && NoBreak(b)
    ensures NoBreak(a + b)
  {
    forall i | 0 <= i < |a + b| ensures !Text.IsNewline((a + b)[i]) {
      if i >= |a| {
        assert (a + b)[i] == b[i - |a|];
      }
    }
  }

  /** Three plain, trimmed fields and any further columns without a line break make a
      line without a line break that imports as those three fields. */
  lemma FieldsLineReadsBack(name: string, phone: string, email: string, rest: string)
    requires name != [] && phone != []
    requires FieldTrimmed(name) && FieldTrimmed(phone) && FieldTrimmed(email)
    requires PlainField(name) && PlainField(phone) && PlainField(email)
    requires NoBreak(rest)
    ensures NoBreak(name + "," + phone + "," + email + "," + rest)
    ensures ParseRow(name + "," + phone + "," + email + "," + rest) == Some(GuestImportData(name, phone, Some(email)))
  {
    FieldsLineNoBreak(name, phone, email, rest);
    FieldsLineColumns(name, phone, email, rest);
    RowOfLeadingColumns(name, phone, email, Columns(rest));
  }

  lemma FieldsLineNoBreak(name: string, phone: string, email: string, rest: string)
    requires PlainField(name) && PlainField(phone) && PlainField(email)
    requires NoBreak(rest)
    ensures NoBreak(name + "," + phone + "," + email + "," + rest)
  {
    assert NoBreak(name + ",") && NoBreak(phone + ",") && NoBreak(email + ",");
    NoBreakAppend(name + ",", phone + ",");
    NoBreakAppend(name + "," + phone + ",", email + ",");
    NoBreakAppend(name + "," + phone + "," + email + ",", rest);
  }

  lemma FieldsLineColumns(name: string, phone: string, email: string, rest: string)
    requires PlainField(name) && PlainField(phone) && PlainField(email)
    ensures Columns(name + "," + phone + "," + email + "," + rest) == [name, phone, email] + Columns(rest)
  {
    var tail2 := email + "," + rest;
    var tail1 := phone + "," + tail2;
    assert name + "," + phone + "," + email + "," + rest == name + "," + tail1;
    ColumnsCons(email, rest);
    ColumnsCons(phone, tail2);
    ColumnsCons(name, tail1);
  }

  lemma RowOfLeadingColumns(name: string, phone: string, email: string, more: seq<string>)
    requires name != [] && phone != []
    requires FieldTrimmed(name) && FieldTrimmed(phone) && FieldTrimmed(email)
    ensures RowOfColumns([name, phone, email] + more) == Some(GuestImportData(name, phone, Some(email)))
  {
    TrimFieldOfTrimmed(name);
    TrimFieldOfTrimmed(phone);
    TrimFieldOfTrimmed(email);
    var cols := [name, phone, email] + more;
    assert |cols| >= 3 && cols[0] == name && cols[1] == phone && cols[2] == email;
  }

  /** A final line break adds only an empty line, which imports nobody. */
  lemma ParseCSVTrailingBreak(csv: string)
    ensures ParseCSV(csv + "\n") == ParseCSV(csv)
  {
    ParseCSVAppendLine(csv, '\n', "");
    assert csv + ['\n'] + "" == csv + "\n";
    assert Columns("") == [""];
  }

  /** Text that ends with a line break, followed by one more line and a line break,
      imports that line's row after the rows it already imported. */
  lemma ParseCSVAppendLineBreak(before: string, line: string)
    requires |before| > 0 && before[|before| - 1] == '\n'
    requires NoBreak(line)
    ensures ParseCSV(before + line + "\n") == ParseCSV(before) + Seqs.OptionToSeq(ParseRow(line))
  {
    var prefix := before[..|before| - 1];
    assert before == prefix + "\n";
    ParseCSVTrailingBreak(prefix);
    assert before + line + "\n" == (prefix + ['\n'] + line) + "\n";
    ParseCSVTrailingBreak(prefix + ['\n'] + line);
    ParseCSVAppendLine(prefix, '\n', line);
  }

  /** The header line alone imports nobody. */
  lemma HeaderReadsBack()
    ensures ParseCSV(HeaderLine + "\n") == []
  {
    HeaderNoBreak();
    ParseCSVTrailingBreak(HeaderLine);
    ParseCSVHeaderOnly(HeaderLine);
  }

  lemma HeaderNoBreak()
    ensures NoBreak(HeaderLine)
  {
  }

  /** Exporting and importing again gives back each exported guest's name, phone and
      email column, in order; the header is skipped. */
  lemma {:induction false} ExportLinesReadBack(guests: seq<Guest>, rsvps: seq<RSVP>, formatDate: int -> string)
    requires forall i :: 0 <= i < |guests| ==> Exportable(guests[i])
    requires forall t :: NoBreak(formatDate(t))
    ensures ParseCSV(ExportLines(guests, rsvps, formatDate)) == RowsOf(guests)
    decreases |guests|
  {
    if |guests| == 0 {
      HeaderReadsBack();
    } else {
      var init := guests[..|guests| - 1];
      assert forall i :: 0 <= i < |init| ==> init[i] == guests[i];
      ExportLinesReadBack(init, rsvps, formatDate);
      ExportLineStep(guests, rsvps, formatDate);
    }
  }

  /** One more exported guest adds its own row to what the import reads back. */
  lemma ExportLineStep(guests: seq<Guest>, rsvps: seq<RSVP>, formatDate: int -> string)
    requires |guests| > 0 && Exportable(guests[|guests| - 1])
    requires forall t :: NoBreak(formatDate(t))
    requires ParseCSV(ExportLines(guests[..|guests| - 1], rsvps, formatDate)) == RowsOf(guests[..|guests| - 1])
    ensures ParseCSV(ExportLines(guests, rsvps, formatDate)) == RowsOf(guests)
  {
    var g := guests[|guests| - 1];
    GuestLineReadsBack(g, rsvps, formatDate);
    ParseCSVAppendLineBreak(ExportLines(guests[..|guests| - 1], rsvps, formatDate), GuestLine(g, rsvps, formatDate));
  }

  /** Importing an event's export reads back the event's guests, in the store's order,
      when their fields are plain and the date format writes no line break. */
  lemma ExportReadsBack(s: Store, event: Event, formatDate: int -> string)
    requires forall i :: 0 <= i < |s.guests| && s.guests[i].eventId == event.id ==> Exportable(s.guests[i])
    requires forall t :: NoBreak(formatDate(t))
    ensures ParseCSV(ExportGuestListToCSV(s, event, formatDate)) == RowsOf(GuestsOf(s.guests, event.id))
  {
    var gs := GuestsOf(s.guests, event.id);
    forall i | 0 <= i < |gs| ensures Exportable(gs[i]) {
      assert gs[i] in s.guests;
    }
    ExportLinesReadBack(gs, s.rsvps, formatDate);
  }
}

=== FILE: multipart.dfy ===
/** The upload body builder `createMultipartBody` (Services/APIService.swift): one
    file part of a multipart/form-data body, with the delimiters of section 5.1.1 of
    RFC 2046 and the Content-Disposition header of section 4.2 of RFC 7578. Strings
    enter the body as their UTF-8 bytes. */
module Multipart {
  import opened Wrappers

  newtype byte = x: int | 0 <= x < 256

  /** The UTF-8 encoding of one Unicode scalar value. */
  function Utf8Char(c: char): (bs: seq<byte>)
    ensures 1 <= |bs| <= 4
    ensures (c as int < 0x80) <==> |bs| == 1
    ensures c as int < 0x80 ==> bs == [c as int as byte]
  {
    var n := c as int;
    if n < 0x80 then [n as byte]
    else if n < 0x800 then [(0xC0 + n / 0x40) as byte, (0x80 + n % 0x40) as byte]
    else if n < 0x10000 then
      [(0xE0 + n / 0x1000) as byte, (0x80 + (n / 0x40) % 0x40) as byte, (0x80 + n % 0x40) as byte]
    else
      [(0xF0 + n / 0x40000) as byte, (0x80 + (n / 0x1000) % 0x40) as byte,
       (0x80 + (n / 0x40) % 0x40) as byte, (0x80 + n % 0x40) as byte]
  }

  /** `string.data(using: .utf8)`. */
  function Utf8(s: string): seq<byte>
    decreases |s|
  {
    if |s| == 0 then [] else Utf8Char(s[0]) + Utf8(s[1..])
  }

  /** Encoding distributes over concatenation. */
  lemma {:induction false} Utf8Append(a: string, b: string)
    ensures Utf8(a + b) == Utf8(a) + Utf8(b)
    decreases |a|
  {
    if |a| == 0 {
      assert a + b == b;
    } else {
      assert (a + b)[0] == a[0] && (a + b)[1..] == a[1..] + b;
      Utf8Append(a[1..], b);
    }
  }

  predicate IsAscii(s: string) {
    forall i :: 0 <= i < |s| ==> s[i] as int < 0x80
  }

  /** An ASCII string is encoded byte for byte. */
  lemma {:induction false} Utf8Ascii(s: string)
    requires IsAscii(s)
    ensures |Utf8(s)| == |s|
    ensures forall i :: 0 <= i < |s| ==> Utf8(s)[i] == s[i] as int as byte
    decreases |s|
  {
    if |s| > 0 {
      Utf8Ascii(s[1..]);
    }
  }

  const CRLF: string := "\r\n"
  const DispositionPrefix: string := "Content-Disposition: " + "form-data; " + "name=\"file\"; " + "filename=\""
  const ContentTypePrefix: string := "Content-Type: "

  /** The opening delimiter line "--boundary" CRLF. */
  function Opening(boundary: string): seq<byte> {
    Utf8("--" + boundary + CRLF)
  }

  /** The part's two header lines and the blank line that ends them. */
  function PartHeaders(fileName: string, mimeType: string): seq<byte> {
    Utf8(DispositionPrefix + fileName + "\"" + CRLF) + Utf8(ContentTypePrefix + mimeType + CRLF + CRLF)
  }

  /** Everything before the payload. */
  function Head(boundary: string, fileName: string, mimeType: string): seq<byte> {
    Opening(boundary) + PartHeaders(fileName, mimeType)
  }

  /** Everything after the payload: CRLF, then the closing delimiter "--boundary--" CRLF. */
  function Tail(boundary: string): seq<byte> {
    Utf8(CRLF) + Utf8("--" + boundary + "--" + CRLF)
  }

  /** `createMultipartBody`: the opening delimiter, the Content-Disposition and
      Content-Type lines, a blank line, the payload verbatim, CRLF and the closing
      delimiter. The overhead around the payload is 88 bytes plus the encoded
      boundary twice, the file name and the MIME type. */
  function CreateMultipartBody(boundary: string, data: seq<byte>, fileName: string, mimeType: string): (body: seq<byte>)
    ensures body == Head(boundary, fileName, mimeType) + data + Tail(boundary)
    ensures body[..|Opening(boundary)|] == Opening(boundary)
    ensures var h := |Head(boundary, fileName, mimeType)|;
            body[h..h + |data|] == data
    ensures body[|body| - |Tail(boundary)|..] == Tail(boundary)
    ensures |body| == |data| + 88 + 2 * |Utf8(boundary)| + |Utf8(fileName)| + |Utf8(mimeType)|
  {
    var body := Utf8("--" + boundary + CRLF)
      + Utf8(DispositionPrefix + fileName + "\"" + CRLF)
      + Utf8(ContentTypePrefix + mimeType + CRLF + CRLF)
      + data
      + Utf8(CRLF)
      + Utf8("--" + boundary + "--" + CRLF);
    HeadLength(boundary, fileName, mimeType);
    TailLength(boundary);
    var h := Head(boundary, fileName, mimeType);
    assert body == h + data + Tail(boundary);
    assert (h + data + Tail(boundary))[..|Opening(boundary)|] == Opening(boundary);
    body
  }

  lemma OpeningLength(boundary: string)
    ensures |Opening(boundary)| == 4 + |Utf8(boundary)|
  {
    Utf8Ascii("--");
    Utf8Ascii(CRLF);
    Utf8Append("--", boundary);
    Utf8Append("--" + boundary, CRLF);
  }

  lemma DispositionPrefixIsAscii()
    ensures IsAscii(DispositionPrefix)
  {
    var a, b, c, d := "Content-Disposition: ", "form-data; ", "name=\"file\"; ", "filename=\"";
    assert IsAscii(a) && IsAscii(b) && IsAscii(c) && IsAscii(d);
    assert IsAscii(a + b);
    assert IsAscii(a + b + c);
  }

  lemma DispositionLength(fileName: string)
    ensures |Utf8(DispositionPrefix + fileName + "\"" + CRLF)| == 58 + |Utf8(fileName)|
  {
    Utf8Ascii(CRLF);
    Utf8Ascii("\"");
    DispositionPrefixIsAscii();
    Utf8Ascii(DispositionPrefix);
    Utf8Append(DispositionPrefix, fileName);
    Utf8Append(DispositionPrefix + fileName, "\"");
    Utf8Append(DispositionPrefix + fileName + "\"", CRLF);
  }

  lemma ContentTypeLength(mimeType: string)
    ensures |Utf8(ContentTypePrefix + mimeType + CRLF + CRLF)| == 18 + |Utf8(mimeType)|
  {
    Utf8Ascii(CRLF);
    Utf8Ascii(ContentTypePrefix);
    Utf8Append(ContentTypePrefix, mimeType);
    Utf8Append(ContentTypePrefix + mimeType, CRLF);
    Utf8Append(ContentTypePrefix + mimeType + CRLF, CRLF);
  }

  lemma HeadLength(boundary: string, fileName: string, mimeType: string)
    ensures |Head(boundary, fileName, mimeType)| == 80 + |Utf8(boundary)| + |Utf8(fileName)| + |Utf8(mimeType)|
  {
    OpeningLength(boundary);
    DispositionLength(fileName);
    ContentTypeLength(mimeType);
  }

  lemma TailLength(boundary: string)
    ensures |Tail(boundary)| == 8 + |Utf8(boundary)|
  {
    Utf8Ascii("--");
    Utf8Ascii(CRLF);
    Utf8Append("--", boundary);
    Utf8Append("--" + boundary, "--");
    Utf8Append("--" + boundary + "--", CRLF);
  }

  /** Reads the payload back out of a body built with the same boundary, file name and
      MIME type: the head and tail must match and the bytes between them are the file. */
  function ExtractPayload(body: seq<byte>, boundary: string, fileName: string, mimeType: string): (r: Option<seq<byte>>)
    ensures r.Some? ==> Head(boundary, fileName, mimeType) + r.value + Tail(boundary) == body
  {
    var h, t := Head(boundary, fileName, mimeType), Tail(boundary);
    if |body| >= |h| + |t| && body[..|h|] == h && body[|body| - |t|..] == t then
      var payload := body[|h|..|body| - |t|];
      assert body == body[..|h|] + payload + body[|body| - |t|..];
      Some(payload)
    else None
  }

  /** The builder and the reader are inverse: the file comes back unchanged, so
      different files always give different bodies. */
  lemma ExtractCreatedBody(boundary: string, data: seq<byte>, fileName: string, mimeType: string)
    ensures ExtractPayload(CreateMultipartBody(boundary, data, fileName, mimeType), boundary, fileName, mimeType) == Some(data)
  {
    var body := CreateMultipartBody(boundary, data, fileName, mimeType);
    var h, t := Head(boundary, fileName, mimeType), Tail(boundary);
    assert body == h + data + t;
    assert body[..|h|] == h;
    assert body[|body| - |t|..] == t;
    assert body[|h|..|body| - |t|] == data;
  }
}

=== FILE: qr_codes.dfy ===
/** The signed check-in payload: issuing it for a confirmed RSVP and validating it at
    the door (Services/QRCodeGenerator.swift). SHA-256 and the JSON + base64 codec are
    parameters of the model, and "now" is a parameter in whole seconds. */
module QRCodes {
  import opened Wrappers
  import opened Rsvps
  import opened Events

  /** The payload carried by a code. The encoder also writes a constant format
      version, 1, which the decoder never reads back. */
  datatype QRCodeData = QRCodeData(
    rsvpId: string,
    eventId: string,
    guestId: string,
    guestName: string,
    eventName: string,
    eventDate: int,
    timestamp: int,
    signature: string)

  datatype QRValidationResult = QRValidationResult(
    isValid: bool,
    rsvpId: Option<string>,
    guestName: Option<string>,
    errorMessage: Option<string>)

  /** JSON encoding followed by base64, and base64 decoding followed by JSON decoding;
      `decode` yields `None` when either step fails. */
  datatype Codec = Codec(encode: QRCodeData -> string, decode: string -> Option<QRCodeData>)

  /** The property assumed of the platform codec: decoding an encoded payload gives
      the payload back. */
  ghost predicate RoundTrips(codec: Codec) {
    forall p :: codec.decode(codec.encode(p)) == Some(p)
  }

  const SecretKey: string := "INVITII_SECRET_KEY"
  const InvalidFormatMessage: string := "Invalid QR code format"
  const DifferentEventMessage: string := "QR code is for a different event"
  const InvalidSignatureMessage: string := "Invalid QR code signature"
  const ExpiredMessage: string := "QR code has expired"

  /** The grace window after the event date, in seconds: one day, taken as a fixed
      86400 seconds. */
  const OneDay: int := 86400

  /** The text that is hashed: "rsvpId:eventId:INVITII_SECRET_KEY". */
  function SigningInput(rsvpId: string, eventId: string): string {
    rsvpId + ":" + eventId + ":" + SecretKey
  }

  /** `generateSignature`: the SHA-256 hex digest of the signing input. */
  function Signature(sha256: string -> string, rsvpId: string, eventId: string): string {
    sha256(SigningInput(rsvpId, eventId))
  }

  /** The payload is for the scanning event and carries the signature of its own ids. */
  predicate Authentic(sha256: string -> string, p: QRCodeData, eventId: string) {
    p.eventId == eventId && p.signature == Signature(sha256, p.rsvpId, p.eventId)
  }

  /** The scan happens no later than one day after the event date. */
  predicate InGraceWindow(p: QRCodeData, now: int) {
    now <= p.eventDate + OneDay
  }

  /** `validateQRCode(_:for:)`: decode, then compare the event, then the signature,
      then the expiry; the first failing check decides the message. */
  function ValidateQRCode(codec: Codec, sha256: string -> string, qrString: string,
                          eventId: string, now: int): (r: QRValidationResult)
    ensures codec.decode(qrString).None? ==> r == QRValidationResult(false, None, None, Some(InvalidFormatMessage))
    ensures r.isValid <==> codec.decode(qrString).Some?
                           && Authentic(sha256, codec.decode(qrString).value, eventId)
                           && InGraceWindow(codec.decode(qrString).value, now)
    ensures r.isValid <==> r.errorMessage.None?
    ensures codec.decode(qrString).Some? ==>
              var p := codec.decode(qrString).value;
              && r.rsvpId == Some(p.rsvpId) && r.guestName == Some(p.guestName)
              && (p.eventId != eventId ==> r.errorMessage == Some(DifferentEventMessage))
              && (p.eventId == eventId && !Authentic(sha256, p, eventId) ==>
                    r.errorMessage == Some(InvalidSignatureMessage))
              && (Authentic(sha256, p, eventId) && !InGraceWindow(p, now) ==>
                    r.errorMessage == Some(ExpiredMessage))
  {
    match codec.decode(qrString)
    case None => QRValidationResult(false, None, None, Some(InvalidFormatMessage))
    case Some(p) =>
      if p.eventId != eventId then
        QRValidationResult(false, Some(p.rsvpId), Some(p.guestName), Some(DifferentEventMessage))
      else if p.signature != Signature(sha256, p.rsvpId, p.eventId) then
        QRValidationResult(false, Some(p.rsvpId), Some(p.guestName), Some(InvalidSignatureMessage))
      else if !(now <= p.eventDate + OneDay) then
        QRValidationResult(false, Some(p.rsvpId), Some(p.guestName), Some(ExpiredMessage))
      else
        QRValidationResult(true, Some(p.rsvpId), Some(p.guestName), None)
  }

  /** The payload `generateQRCode(for:event:)` encodes; `now` is the issuance time. */
  function IssuedPayload(sha256: string -> string, rsvp: RSVP, event: Event, now: int): (p: QRCodeData)
    ensures Authentic(sha256, p, event.id)
    ensures p.rsvpId == rsvp.id && p.guestName == rsvp.guestName && p.eventDate == event.date
  {
    QRCodeData(rsvp.id, event.id, rsvp.guestId, rsvp.guestName, event.name, event.date, now,
               Signature(sha256, rsvp.id, event.id))
  }

  /** `generateQRCode(for:event:)`. */
  function GenerateQRCode(codec: Codec, sha256: string -> string, rsvp: RSVP, event: Event, now: int): string {
    codec.encode(IssuedPayload(sha256, rsvp, event, now))
  }

  /** A freshly issued code, scanned at its own event, passes the event and signature
      checks: it is accepted exactly up to one day after the event date and otherwise
      reported as expired; either way it names the RSVP and guest it was issued for. */
  lemma IssuedCodeValidates(codec: Codec, sha256: string -> string, rsvp: RSVP, event: Event,
                            issuedAt: int, now: int)
    requires RoundTrips(codec)
    ensures var r := ValidateQRCode(codec, sha256, GenerateQRCode(codec, sha256, rsvp, event, issuedAt), event.id, now);
            && (r.isValid <==> now <= event.date + OneDay)
            && (!r.isValid ==> r.errorMessage == Some(ExpiredMessage))
            && r.rsvpId == Some(rsvp.id) && r.guestName == Some(rsvp.guestName)
  {
    var p := IssuedPayload(sha256, rsvp, event, issuedAt);
    assert codec.decode(codec.encode(p)) == Some(p);
  }

  /** A code issued for one event is refused at any other event with the
      different-event message, whatever its signature and date. */
  lemma IssuedCodeRefusedElsewhere(codec: Codec, sha256: string -> string, rsvp: RSVP, event: Event,
                                   issuedAt: int, otherEventId: string, now: int)
    requires RoundTrips(codec)
    requires otherEventId != event.id
    ensures ValidateQRCode(codec, sha256, GenerateQRCode(codec, sha256, rsvp, event, issuedAt), otherEventId, now)
            == QRValidationResult(false, Some(rsvp.id), Some(rsvp.guestName), Some(DifferentEventMessage))
  {
    var p := IssuedPayload(sha256, rsvp, event, issuedAt);
    assert codec.decode(codec.encode(p)) == Some(p);
  }

  /** Only the two ids are signed: re-encoding a payload with a different guest name,
      guest id, event name, event date or timestamp keeps its signature valid, so the
      outcome changes only through the expiry check and the reported name. */
  lemma UnsignedFieldsNotAuthenticated(codec: Codec, sha256: string -> string, p: QRCodeData,
                                       q: QRCodeData, eventId: string, now: int)
    requires RoundTrips(codec)
    requires q.rsvpId == p.rsvpId && q.eventId == p.eventId && q.signature == p.signature
    requires InGraceWindow(p, now) == InGraceWindow(q, now)
    ensures ValidateQRCode(codec, sha256, codec.encode(q), eventId, now)
            == ValidateQRCode(codec, sha256, codec.encode(p), eventId, now).(guestName := Some(q.guestName))
  {
    assert codec.decode(codec.encode(p)) == Some(p);
    assert codec.decode(codec.encode(q)) == Some(q);
  }

  /** The ids are joined with ':' and not escaped, so two different id pairs can share
      one signing input and hence one signature. */
  lemma SigningInputAmbiguous(sha256: string -> string)
    ensures SigningInput("a:b", "c") == SigningInput("a", "b:c")
    ensures Signature(sha256, "a:b", "c") == Signature(sha256, "a", "b:c")
  {
  }

  /** `generateQRCodesForEvent`: one code per confirmed RSVP, keyed by RSVP id; when
      several confirmed RSVPs share an id, the last one's code is kept. */
  method GenerateQRCodesForEvent(codec: Codec, sha256: string -> string, event: Event,
                                 rsvps: seq<RSVP>, now: int) returns (qrCodes: map<string, string>)
    ensures qrCodes.Keys == set i | 0 <= i < |rsvps| && rsvps[i].status == Yes :: rsvps[i].id
    ensures forall i :: 0 <= i < |rsvps| && rsvps[i].status == Yes && LastConfirmedWithId(rsvps, i, |rsvps|) ==>
              qrCodes[rsvps[i].id] == GenerateQRCode(codec, sha256, rsvps[i], event, now)
  {
    qrCodes := map[];
    var k := 0;
    while k < |rsvps|
      invariant 0 <= k <= |rsvps|
      invariant KeysCover(rsvps, qrCodes, k)
      invariant ValuesCover(codec, sha256, event, rsvps, now, qrCodes, k)
    {
      var next := if rsvps[k].status == Yes
                  then qrCodes[rsvps[k].id := GenerateQRCode(codec, sha256, rsvps[k], event, now)]
                  else qrCodes;
      KeysStep(rsvps, qrCodes, k, GenerateQRCode(codec, sha256, rsvps[k], event, now));
      ValuesStep(codec, sha256, event, rsvps, now, qrCodes, k);
      qrCodes := next;
      k := k + 1;
    }
  }

  /** The keys are the ids of the confirmed RSVPs among the first `k`. */
  predicate KeysCover(rsvps: seq<RSVP>, qrCodes: map<string, string>, k: nat)
    requires k <= |rsvps|
  {
    qrCodes.Keys == set i | 0 <= i < k && rsvps[i].status == Yes :: rsvps[i].id
  }

  /** Among the first `k`, each confirmed RSVP that no later one shares an id with has
      its own code in the map. */
  predicate ValuesCover(codec: Codec, sha256: string -> string, event: Event, rsvps: seq<RSVP>,
                        now: int, qrCodes: map<string, string>, k: nat)
    requires k <= |rsvps|
  {
    forall i :: 0 <= i < k && rsvps[i].status == Yes && LastConfirmedWithId(rsvps, i, k) ==>
      rsvps[i].id in qrCodes && qrCodes[rsvps[i].id] == GenerateQRCode(codec, sha256, rsvps[i], event, now)
  }

  lemma KeysStep(rsvps: seq<RSVP>, qrCodes: map<string, string>, k: nat, code: string)
    requires k < |rsvps| && KeysCover(rsvps, qrCodes, k)
    ensures KeysCover(rsvps, if rsvps[k].status == Yes then qrCodes[rsvps[k].id := code] else qrCodes, k + 1)
  {
  }

  lemma ValuesStep(codec: Codec, sha256: string -> string, event: Event, rsvps: seq<RSVP>,
                   now: int, qrCodes: map<string, string>, k: nat)
    requires k < |rsvps| && ValuesCover(codec, sha256, event, rsvps, now, qrCodes, k)
    ensures ValuesCover(codec, sha256, event, rsvps, now,
                        if rsvps[k].status == Yes
                        then qrCodes[rsvps[k].id := GenerateQRCode(codec, sha256, rsvps[k], event, now)]
                        else qrCodes, k + 1)
  {
  }

  /** No confirmed RSVP after position `i` and before `end` has the same id. */
  predicate LastConfirmedWithId(rsvps: seq<RSVP>, i: nat, end: nat)
    requires i < |rsvps| && end <= |rsvps|
  {
    forall j :: i < j < end ==> !(rsvps[j].status == Yes && rsvps[j].id == rsvps[i].id)
  }
}

=== FILE: rsvp.dfy ===
/** Attendance responses and the results of scanning a check-in code
    (Models/RSVP.swift). Timestamps are whole seconds supplied by the caller. */
module Rsvps {
  import opened Wrappers

  datatype RSVPStatus = Yes | No | Maybe | Pending {

    /** The string the status is stored and transmitted as. */
    function RawValue(): string {
      match this
      case Yes => "yes"
      case No => "no"
      case Maybe => "maybe"
      case Pending => "pending"
    }

    /** The label shown to the host. */
    function DisplayName(): string {
      match this
      case Yes => "Yes"
      case No => "No"
      case Maybe => "Maybe"
      case Pending => "Pending"
    }
  }

  /** Swift's synthesized `RSVPStatus(rawValue:)`: the status whose raw value is `raw`. */
  function StatusFromRawValue(raw: string): (r: Option<RSVPStatus>)
    ensures r.Some? ==> r.value.RawValue() == raw
  {
    if raw == "yes" then Some(Yes)
    else if raw == "no" then Some(No)
    else if raw == "maybe" then Some(Maybe)
    else if raw == "pending" then Some(Pending)
    else None
  }

  /** Decoding a status's raw value recovers the status, so distinct statuses have
      distinct raw values; display names are distinct too. */
  lemma StatusRawValueRoundTrip(st: RSVPStatus)
    ensures StatusFromRawValue(st.RawValue()) == Some(st)
    ensures forall other: RSVPStatus :: other != st ==> other.RawValue() != st.RawValue()
    ensures forall other: RSVPStatus :: other != st ==> other.DisplayName() != st.DisplayName()
  {
  }

  datatype RSVP = RSVP(
    id: string,
    guestId: string,
    eventId: string,
    status: RSVPStatus,
    message: Option<string>,
    qrCode: Option<string>,
    qrCodeUsed: bool,
    qrCodeUsedAt: Option<int>,
    respondedAt: int,
    createdAt: int,
    guestName: string,
    guestPhone: string)

  /** A record is consistent about check-in when it has a use time exactly when it is
      marked used. */
  predicate CheckInConsistent(r: RSVP) {
    r.qrCodeUsed <==> r.qrCodeUsedAt.Some?
  }

  /** The RSVP initializer with its defaults for the message, the code and the check-in
      fields; `now` stands for `Date()`, used for both response and creation time. */
  function NewRSVP(id: string, guestId: string, eventId: string, status: RSVPStatus,
                   message: Option<string>, qrCode: Option<string>,
                   guestName: string, guestPhone: string, now: int): (r: RSVP)
    ensures !r.qrCodeUsed && r.qrCodeUsedAt.None? && CheckInConsistent(r)
    ensures r.respondedAt == r.createdAt == now
    ensures r.id == id && r.guestId == guestId && r.eventId == eventId && r.status == status
  {
    RSVP(id, guestId, eventId, status, message, qrCode, false, None, now, now, guestName, guestPhone)
  }

  /** The outcome of looking up a scanned code. */
  datatype QRScanResult = QRScanResult(
    rsvpId: string,
    eventId: string,
    guestName: string,
    isValid: bool,
    isAlreadyUsed: bool,
    errorMessage: Option<string>)

  const AlreadyUsedMessage: string := "QR code has already been used"

  /** The three kinds of scan outcome a door operator can see. */
  datatype ScanKind = Admitted | Used | Rejected

  /** Classifies a result by its two flags; `None` when the flags are contradictory. */
  function Kind(r: QRScanResult): Option<ScanKind> {
    if r.isValid && !r.isAlreadyUsed then Some(Admitted)
    else if !r.isValid && r.isAlreadyUsed then Some(Used)
    else if !r.isValid && !r.isAlreadyUsed then Some(Rejected)
    else None
  }

  /** A result never claims to be both valid and already used, and it carries an error
      message exactly when it is not valid. */
  predicate WellFormed(r: QRScanResult) {
    Kind(r).Some? && (r.errorMessage.None? <==> r.isValid)
  }

  /** `QRScanResult.success`: admit the holder. */
  function Success(rsvpId: string, eventId: string, guestName: string): (r: QRScanResult)
    ensures WellFormed(r) && Kind(r) == Some(Admitted)
    ensures r.rsvpId == rsvpId && r.eventId == eventId && r.guestName == guestName
  {
    QRScanResult(rsvpId, eventId, guestName, true, false, None)
  }

  /** `QRScanResult.alreadyUsed`: the code was redeemed before. */
  function AlreadyUsed(rsvpId: string, eventId: string, guestName: string): (r: QRScanResult)
    ensures WellFormed(r) && Kind(r) == Some(Used)
    ensures r.errorMessage == Some(AlreadyUsedMessage)
    ensures r.rsvpId == rsvpId && r.eventId == eventId && r.guestName == guestName
  {
    QRScanResult(rsvpId, eventId, guestName, false, true, Some(AlreadyUsedMessage))
  }

  /** `QRScanResult.invalid`: nothing is identified, only the reason is reported. */
  function Invalid(errorMessage: string): (r: QRScanResult)
    ensures WellFormed(r) && Kind(r) == Some(Rejected)
    ensures r.rsvpId == "" && r.eventId == "" && r.guestName == ""
    ensures r.errorMessage == Some(errorMessage)
  {
    QRScanResult("", "", "", false, false, Some(errorMessage))
  }
}

=== FILE: scanner.dfy ===
/** The door scanner's check-in step and its statistics (Views/QRScannerView.swift):
    look the code up, and redeem it only when the lookup says success. */
module Scanner {
  import opened Wrappers
  import Seqs
  import opened Rsvps
  import opened Events
  import opened EventStore

  /** The scanner screen's state: the shared store plus the view's own fields. */
  datatype ScannerState = ScannerState(
    store: Store,
    scannedCode: string,
    showingResult: bool,
    scanResult: Option<QRScanResult>,
    selectedEvent: Option<Event>)

  /** The store after one scan of `code`: redeemed only on success. */
  function StoreAfterScan(store: Store, code: string, now: int): (t: Store)
    ensures Kind(ValidateQRCode(store, code)) != Some(Admitted) ==> t == store
  {
    var result := ValidateQRCode(store, code);
    if result.isValid && !result.isAlreadyUsed then MarkQRCodeAsUsed(store, result.rsvpId, now) else store
  }

  /** `handleQRCodeScan`: validate, show the result, write only on success, and clear
      the entered code. The selected event plays no part. */
  function HandleQRCodeScan(st: ScannerState, code: string, now: int): (t: ScannerState)
    ensures t.scanResult == Some(ValidateQRCode(st.store, code)) && t.showingResult
    ensures t.scannedCode == "" && t.selectedEvent == st.selectedEvent
    ensures Kind(ValidateQRCode(st.store, code)) != Some(Admitted) ==> t.store == st.store
    ensures Kind(ValidateQRCode(st.store, code)) == Some(Admitted) ==>
              t.store == MarkQRCodeAsUsed(st.store, ValidateQRCode(st.store, code).rsvpId, now)
  {
    var result := ValidateQRCode(st.store, code);
    st.(store := StoreAfterScan(st.store, code, now), scanResult := Some(result),
        showingResult := true, scannedCode := "")
  }

  /** The "Validate Code" button: an empty entry is never submitted. */
  function ValidateButton(st: ScannerState, now: int): (t: ScannerState)
    ensures st.scannedCode == "" ==> t == st
    ensures st.scannedCode != "" ==>
              && t.scanResult == Some(ValidateQRCode(st.store, st.scannedCode))
              && t.showingResult && t.scannedCode == "" && t.selectedEvent == st.selectedEvent
              && t.store == StoreAfterScan(st.store, st.scannedCode, now)
    ensures st.scannedCode != "" && Kind(ValidateQRCode(st.store, st.scannedCode)) == Some(Admitted) ==>
              t.store == MarkQRCodeAsUsed(st.store, ValidateQRCode(st.store, st.scannedCode).rsvpId, now)
    ensures st.scannedCode != "" && Kind(ValidateQRCode(st.store, st.scannedCode)) != Some(Admitted) ==>
              t.store == st.store
  {
    if st.scannedCode != "" then HandleQRCodeScan(st, st.scannedCode, now) else st
  }

  /** `CheckInStatsView.checkedInCount`: the store's used RSVPs of the event. */
  function CheckedInCount(store: Store, event: Event): nat {
    |Seqs.Filter(store.rsvps, (r: RSVP) => r.eventId == event.id && r.qrCodeUsed)|
  }

  /** The "Remaining" figure: confirmed minus checked in, as a signed number. */
  function RemainingCount(store: Store, event: Event): int {
    ConfirmedCount(event) - CheckedInCount(store, event)
  }

  /** With distinct RSVP ids, the RSVP a successful lookup names is the very RSVP that
      carries the code, and redemption marks exactly it. */
  lemma RedeemsScannedRSVP(store: Store, code: string, now: int)
    requires UniqueRSVPIds(store.rsvps)
    requires Kind(ValidateQRCode(store, code)) == Some(Admitted)
    ensures CodeIndex(store.rsvps, code).Some?
    ensures var k := CodeIndex(store.rsvps, code).value;
            && RSVPIndex(store.rsvps, ValidateQRCode(store, code).rsvpId) == Some(k)
            && !store.rsvps[k].qrCodeUsed
            && StoreAfterScan(store, code, now).rsvps == store.rsvps[k := store.rsvps[k].(qrCodeUsed := true, qrCodeUsedAt := Some(now))]
  {
    var k := CodeIndex(store.rsvps, code).value;
    var id := store.rsvps[k].id;
    assert store.rsvps[k].id == id;
  }

  /** Scanning the same unused code twice in a row admits the holder and then reports
      the code as already used, for the same RSVP, and the second scan writes nothing. */
  lemma ScanTwice(st: ScannerState, code: string, now1: int, now2: int)
    requires UniqueRSVPIds(st.store.rsvps)
    requires Kind(ValidateQRCode(st.store, code)) == Some(Admitted)
    ensures var t1 := HandleQRCodeScan(st, code, now1);
            var t2 := HandleQRCodeScan(t1, code, now2);
            && Kind(t1.scanResult.value) == Some(Admitted)
            && Kind(t2.scanResult.value) == Some(Used)
            && t2.scanResult.value.rsvpId == t1.scanResult.value.rsvpId
            && t2.store == t1.store
  {
    SecondScanUsed(st.store, code, now1);
  }

  /** After a successful scan, the same code is found again on the same, now used,
      RSVP. */
  lemma SecondScanUsed(store: Store, code: string, now: int)
    requires UniqueRSVPIds(store.rsvps)
    requires Kind(ValidateQRCode(store, code)) == Some(Admitted)
    ensures var t := StoreAfterScan(store, code, now);
            && UniqueRSVPIds(t.rsvps)
            && Kind(ValidateQRCode(t, code)) == Some(Used)
            && ValidateQRCode(t, code).rsvpId == ValidateQRCode(store, code).rsvpId
  {
    RedeemsScannedRSVP(store, code, now);
    var k := CodeIndex(store.rsvps, code).value;
    var t := StoreAfterScan(store, code, now);
    assert forall i :: 0 <= i < |t.rsvps| ==> t.rsvps[i].id == store.rsvps[i].id;
    assert forall i :: 0 <= i < |t.rsvps| ==> t.rsvps[i].qrCode == store.rsvps[i].qrCode;
    assert CodeIndex(t.rsvps, code) == Some(k) by {
      assert t.rsvps[k].qrCode == Some(code);
      forall j | 0 <= j < k ensures t.rsvps[j].qrCode != Some(code) {
        assert t.rsvps[j] == store.rsvps[j];
      }
    }
  }

  /** The results of scanning `code` once at each of the given times, in order. */
  function ScanResults(store: Store, code: string, times: seq<int>): (rs: seq<QRScanResult>)
    ensures |rs| == |times|
    decreases |times|
  {
    if |times| == 0 then []
    else [ValidateQRCode(store, code)] + ScanResults(StoreAfterScan(store, code, times[0]), code, times[1..])
  }

  /** A scan that does not admit writes nothing, so every later scan repeats it. */
  lemma {:induction false} NonAdmittingScanRepeats(store: Store, code: string, times: seq<int>)
    requires Kind(ValidateQRCode(store, code)) != Some(Admitted)
    ensures forall i :: 0 <= i < |times| ==> ScanResults(store, code, times)[i] == ValidateQRCode(store, code)
    decreases |times|
  {
    if |times| > 0 {
      NonAdmittingScanRepeats(store, code, times[1..]);
    }
  }

  /** Exactly-once admission: however many times one code is scanned in sequence, only
      the first scan can admit, and once it has, every later scan reports the code as
      already used. */
  lemma AdmitsAtMostOnce(store: Store, code: string, times: seq<int>)
    requires UniqueRSVPIds(store.rsvps)
    ensures var rs := ScanResults(store, code, times);
            forall i :: 0 < i < |rs| ==> Kind(rs[i]) != Some(Admitted)
    ensures var rs := ScanResults(store, code, times);
            |rs| > 0 && Kind(rs[0]) == Some(Admitted) ==>
              forall i :: 0 < i < |rs| ==> Kind(rs[i]) == Some(Used)
  {
    if |times| > 0 {
      var rs := ScanResults(store, code, times);
      var t := StoreAfterScan(store, code, times[0]);
      assert rs[1..] == ScanResults(t, code, times[1..]);
      if Kind(ValidateQRCode(store, code)) == Some(Admitted) {
        SecondScanUsed(store, code, times[0]);
        NonAdmittingScanRepeats(t, code, times[1..]);
      } else {
        NonAdmittingScanRepeats(store, code, times);
      }
    }
  }

  /** A successful scan raises the checked-in count of the scanned RSVP's event by one
      and leaves every other event's count as it was. */
  lemma SuccessfulScanChecksInOne(st: ScannerState, code: string, now: int, event: Event)
    requires UniqueRSVPIds(st.store.rsvps)
    requires Kind(ValidateQRCode(st.store, code)) == Some(Admitted)
    ensures var t := HandleQRCodeScan(st, code, now);
            CheckedInCount(t.store, event) == CheckedInCount(st.store, event)
              + (if ValidateQRCode(st.store, code).eventId == event.id then 1 else 0)
  {
    RedeemsScannedRSVP(st.store, code, now);
    var k := CodeIndex(st.store.rsvps, code).value;
    var x := st.store.rsvps[k];
    Seqs.FilterUpdate(st.store.rsvps, k, x.(qrCodeUsed := true, qrCodeUsedAt := Some(now)),
                      (r: RSVP) => r.eventId == event.id && r.qrCodeUsed);
  }

  /** A scan keeps the store valid: the only RSVP it marks is one that carries the
      scanned code, so only confirmed RSVPs with a code are ever checked in. */
  lemma ScanPreservesValid(st: ScannerState, code: string, now: int)
    requires Valid(st.store)
    ensures Valid(HandleQRCodeScan(st, code, now).store)
  {
    if Kind(ValidateQRCode(st.store, code)) == Some(Admitted) {
      RedeemsScannedRSVP(st.store, code, now);
      MarkCodedKeepsValid(st.store, CodeIndex(st.store.rsvps, code).value, now);
    }
  }

  /** Checking in an RSVP that carries a code keeps the store valid. */
  lemma MarkCodedKeepsValid(s: Store, k: nat, now: int)
    requires Valid(s) && k < |s.rsvps| && s.rsvps[k].qrCode.Some?
    ensures Valid(s.(rsvps := s.rsvps[k := s.rsvps[k].(qrCodeUsed := true, qrCodeUsedAt := Some(now))]))
  {
    var t := s.rsvps[k := s.rsvps[k].(qrCodeUsed := true, qrCodeUsedAt := Some(now))];
    assert forall i :: 0 <= i < |t| ==> t[i].id == s.rsvps[i].id && t[i].guestId == s.rsvps[i].guestId;
  }

  /** The scanner admits a code of another event than the one selected: nothing in the
      check-in path compares the RSVP's event with the scanning event. */
  lemma OtherEventCodeAdmitted(st: ScannerState, code: string, now: int)
    requires UniqueRSVPIds(st.store.rsvps)
    requires st.selectedEvent.Some?
    requires CodeIndex(st.store.rsvps, code).Some?
    requires var x := st.store.rsvps[CodeIndex(st.store.rsvps, code).value];
             !x.qrCodeUsed && x.eventId != st.selectedEvent.value.id
    ensures var t := HandleQRCodeScan(st, code, now);
            && Kind(t.scanResult.value) == Some(Admitted)
            && t.scanResult.value.eventId != st.selectedEvent.value.id
            && t.store.rsvps[CodeIndex(st.store.rsvps, code).value].qrCodeUsed
  {
    RedeemsScannedRSVP(st.store, code, now);
  }

  /** How many of the store's RSVPs for `eventId` are confirmed. */
  function StoreConfirmedCount(store: Store, eventId: string): nat {
    |Seqs.Filter(store.rsvps, (r: RSVP) => r.eventId == eventId && r.status == Yes)|
  }

  /** The event snapshot the statistics view holds agrees with the store on how many
      RSVPs are confirmed; the check-in flags of the snapshot may be stale. */
  predicate ConfirmedInStep(store: Store, event: Event) {
    ConfirmedCount(event) == StoreConfirmedCount(store, event.id)
  }

  /** Refreshing an event's RSVP list from the store (as recording an RSVP does) puts
      that event in step with the store. */
  lemma RefreshPutsConfirmedInStep(s: Store, eventId: string)
    requires EventIndex(s.events, eventId).Some?
    ensures var t := UpdateEventRSVPList(s, eventId);
            ConfirmedInStep(t, t.events[EventIndex(s.events, eventId).value])
  {
    var k := EventIndex(s.events, eventId).value;
    var ofEvent := (r: RSVP) => r.eventId == eventId;
    var yes := (r: RSVP) => r.status == Yes;
    var both := (r: RSVP) => r.eventId == eventId && r.status == Yes;
    Seqs.FilterFilter(s.rsvps, ofEvent, yes, both);
  }

  /** A scan changes no RSVP's event or status, so it keeps a snapshot in step, even
      though the snapshot's own RSVPs are not refreshed by the check-in. */
  lemma ScanKeepsConfirmedInStep(st: ScannerState, code: string, now: int, event: Event)
    requires ConfirmedInStep(st.store, event)
    ensures ConfirmedInStep(HandleQRCodeScan(st, code, now).store, event)
  {
    var s := st.store;
    if Kind(ValidateQRCode(s, code)) == Some(Admitted) {
      var id := ValidateQRCode(s, code).rsvpId;
      match RSVPIndex(s.rsvps, id)
      case None =>
      case Some(k) =>
        var v := s.rsvps[k].(qrCodeUsed := true, qrCodeUsedAt := Some(now));
        assert MarkQRCodeAsUsed(s, id, now).rsvps == s.rsvps[k := v];
        Seqs.FilterUpdate(s.rsvps, k, v, (r: RSVP) => r.eventId == event.id && r.status == Yes);
    }
  }

  /** With a valid store and a snapshot in step with it, no more guests are checked in
      than confirmed, so "Remaining" is never negative. */
  lemma RemainingNonNegative(store: Store, event: Event)
    requires Valid(store)
    requires ConfirmedInStep(store, event)
    ensures 0 <= CheckedInCount(store, event) <= ConfirmedCount(event)
    ensures RemainingCount(store, event) >= 0
  {
    var p := (r: RSVP) => r.eventId == event.id && r.qrCodeUsed;
    var both := (r: RSVP) => r.eventId == event.id && r.status == Yes;
    Seqs.FilterMonotone(store.rsvps, p, both);
  }

  /** Any run of scans keeps "Remaining" non-negative for a snapshot that was in step
      with a valid store when the scanning began. */
  lemma {:induction false} RemainingStaysNonNegative(st: ScannerState, scans: seq<(string, int)>, event: Event)
    requires Valid(st.store) && ConfirmedInStep(st.store, event)
    ensures RemainingCount(ScanAll(st, scans).store, event) >= 0
    decreases |scans|
  {
    if |scans| == 0 {
      RemainingNonNegative(st.store, event);
    } else {
      var (code, now) := scans[0];
      ScanPreservesValid(st, code, now);
      ScanKeepsConfirmedInStep(st, code, now, event);
      RemainingStaysNonNegative(HandleQRCodeScan(st, code, now), scans[1..], event);
    }
  }

  /** Scanning one code after another, each at its own time. */
  function ScanAll(st: ScannerState, scans: seq<(string, int)>): ScannerState
    decreases |scans|
  {
    if |scans| == 0 then st else ScanAll(HandleQRCodeScan(st, scans[0].0, scans[0].1), scans[1..])
  }
}

=== FILE: selection_bot.dfy ===
/** The Telegram staffing bot (main.py): the event's invitation goes to the employees
    living near the event's area, and the first of them to answer "موافقة" is chosen.
    The bot's Telegram, Google Sheets and Calendar calls are left out; the replies it
    would send are returned as data. */
module SelectionBot {
  import opened Wrappers
  import Seqs
  import Text

  /** The accepted answer, "agreement". */
  const Acceptance: string := "موافقة"
  const ConfirmationText: string := "✅ تم تأكيد مشاركتك في الحفل. شكراً على تعاونك."
  const OtherChosenText: string := "تم اختيار موظفة أخرى لهذا الحفل."
  const AlreadyChosenText: string := "تم بالفعل اختيار موظفة لهذا الحفل."

  datatype Message = Message(chatId: string, text: string)
  datatype Reply = Reply(chatId: string, text: string)

  /** The bot's two globals: who was invited, and who was chosen. */
  datatype BotState = BotState(sentEmployees: seq<string>, selectedEmployee: Option<string>)

  /** One handled message: the next state and the replies, in sending order. */
  datatype Step = Step(state: BotState, replies: seq<Reply>)

  /** `str.lower` on one character, restricted to the ASCII letters. */
  function LowerChar(c: char): char {
    if 'A' <= c <= 'Z' then (c as int + 32) as char else c
  }

  function Lower(s: string): (r: string)
    ensures |r| == |s| && forall i :: 0 <= i < |s| ==> r[i] == LowerChar(s[i])
    decreases |s|
  {
    if |s| == 0 then [] else [LowerChar(s[0])] + Lower(s[1..])
  }

  /** `text.strip().lower()`. */
  function Normalize(text: string): string {
    Lower(Text.Trim(text, Text.IsPythonWhitespace))
  }

  /** The accepted answer has no ASCII letters, so lowering cannot produce it from
      anything else: an answer counts exactly when, trimmed, it is the word itself. */
  lemma NormalizeAcceptance(text: string)
    ensures Normalize(text) == Acceptance <==> Text.Trim(text, Text.IsPythonWhitespace) == Acceptance
  {
    LowerAcceptance(Text.Trim(text, Text.IsPythonWhitespace));
  }

  /** Only the accepted word itself lowers to it. */
  lemma LowerAcceptance(t: string)
    ensures Lower(t) == Acceptance <==> t == Acceptance
  {
    if Lower(t) == Acceptance {
      forall i | 0 <= i < |t| ensures t[i] == Acceptance[i] {
        assert LowerChar(t[i]) == Acceptance[i];
      }
    }
  }

  /** Python truthiness of `selected_employee`: set and non-empty. */
  predicate IsChosen(st: BotState) {
    st.selectedEmployee.Some? && st.selectedEmployee.value != ""
  }

  /** The condition under which a message selects its sender. */
  predicate Selects(st: BotState, m: Message) {
    Normalize(m.text) == Acceptance && m.chatId in st.sentEmployees && st.selectedEmployee.None?
  }

  /** The "another employee was chosen" notices: one per entry of `sent` other than
      the chosen chat, in list order. */
  function Notices(sent: seq<string>, chosen: string): (r: seq<Reply>)
    ensures forall i :: 0 <= i < |r| ==> r[i].text == OtherChosenText && r[i].chatId != chosen
    ensures forall i :: 0 <= i < |r| ==> r[i].chatId in sent
    decreases |sent|
  {
    if |sent| == 0 then []
    else (if sent[0] != chosen then [Reply(sent[0], OtherChosenText)] else []) + Notices(sent[1..], chosen)
  }

  /** How many replies go to chat `c`. */
  function RepliesTo(rs: seq<Reply>, c: string): nat {
    |Seqs.Filter(rs, (r: Reply) => r.chatId == c)|
  }

  /** How often `c` occurs in `sent`. */
  function Occurrences(sent: seq<string>, c: string): nat {
    |Seqs.Filter(sent, (x: string) => x == c)|
  }

  /** Every other invited chat receives as many notices as it occurs in the list (so
      exactly one when the list has no repeats), and the chosen chat none. */
  lemma {:induction false} NoticesCount(sent: seq<string>, chosen: string, c: string)
    ensures RepliesTo(Notices(sent, chosen), c) == if c == chosen then 0 else Occurrences(sent, c)
    decreases |sent|
  {
    if |sent| > 0 {
      NoticesCount(sent[1..], chosen, c);
      var head := if sent[0] != chosen then [Reply(sent[0], OtherChosenText)] else [];
      Seqs.FilterAppend(head, Notices(sent[1..], chosen), (r: Reply) => r.chatId == c);
    }
  }

  /** `handle_message`: the first accepted answer from an invited chat, while nobody is
      chosen, selects that chat, confirms to it and notifies the others; once somebody
      is chosen every message gets the already-chosen reply; anything else is ignored. */
  function HandleMessage(st: BotState, m: Message): (s: Step)
    ensures s.state.sentEmployees == st.sentEmployees
    ensures st.selectedEmployee.Some? ==> s.state == st
    ensures Selects(st, m) ==>
              && s.state.selectedEmployee == Some(m.chatId)
              && |s.replies| >= 1
              && s.replies[0] == Reply(m.chatId, ConfirmationText)
              && s.replies[1..] == Notices(st.sentEmployees, m.chatId)
    ensures !Selects(st, m) ==> s.state == st
    ensures !Selects(st, m) && IsChosen(st) ==> s.replies == [Reply(m.chatId, AlreadyChosenText)]
    ensures !Selects(st, m) && !IsChosen(st) ==> s.replies == []
  {
    if Normalize(m.text) == Acceptance && m.chatId in st.sentEmployees && st.selectedEmployee.None? then
      Step(st.(selectedEmployee := Some(m.chatId)),
           [Reply(m.chatId, ConfirmationText)] + Notices(st.sentEmployees, m.chatId))
    else if IsChosen(st) then
      Step(st, [Reply(m.chatId, AlreadyChosenText)])
    else
      Step(st, [])
  }

  /** The state after handling `msgs` in order, and every reply sent meanwhile. */
  function Run(st: BotState, msgs: seq<Message>): (s: Step)
    ensures s.state.sentEmployees == st.sentEmployees
    decreases |msgs|
  {
    if |msgs| == 0 then Step(st, [])
    else
      var first := HandleMessage(st, msgs[0]);
      var rest := Run(first.state, msgs[1..]);
      Step(rest.state, first.replies + rest.replies)
  }

  /** The chat of the earliest message that is an accepted answer from an invited chat. */
  function FirstAcceptor(sent: seq<string>, msgs: seq<Message>): Option<string>
    decreases |msgs|
  {
    if |msgs| == 0 then None
    else if Normalize(msgs[0].text) == Acceptance && msgs[0].chatId in sent then Some(msgs[0].chatId)
    else FirstAcceptor(sent, msgs[1..])
  }

  /** First acceptance wins: starting with nobody chosen, the chosen employee after any
      sequence of messages is the sender of the first accepted answer from an invited
      chat, and it is one of the invited chats. */
  lemma {:induction false} FirstAcceptanceWins(sent: seq<string>, msgs: seq<Message>)
    ensures Run(BotState(sent, None), msgs).state.selectedEmployee == FirstAcceptor(sent, msgs)
    ensures FirstAcceptor(sent, msgs).Some? ==> FirstAcceptor(sent, msgs).value in sent
    decreases |msgs|
  {
    if |msgs| > 0 {
      var st := BotState(sent, None);
      if Selects(st, msgs[0]) {
        ChoiceIsFinal(HandleMessage(st, msgs[0]).state, msgs[1..]);
      } else {
        FirstAcceptanceWins(sent, msgs[1..]);
      }
    }
  }

  /** Once somebody is chosen, later messages never change the choice, and each of them
      gets exactly the already-chosen reply when the choice is a non-empty chat id. */
  lemma {:induction false} ChoiceIsFinal(st: BotState, msgs: seq<Message>)
    requires st.selectedEmployee.Some?
    ensures Run(st, msgs).state == st
    ensures IsChosen(st) ==> |Run(st, msgs).replies| == |msgs|
    ensures IsChosen(st) ==> forall i :: 0 <= i < |msgs| ==>
              Run(st, msgs).replies[i] == Reply(msgs[i].chatId, AlreadyChosenText)
    decreases |msgs|
  {
    if |msgs| > 0 {
      ChoiceIsFinal(st, msgs[1..]);
    }
  }

  // ---------------------------------------------------------------------------
  // Choosing whom to invite

  /** Latitude and longitude in degrees. */
  datatype Coord = Coord(lat: real, lon: real)

  /** An employee row: chat id and home area. */
  datatype Employee = Employee(chatId: string, area: string)

  /** The known areas of Kuwait and their coordinates. */
  const AreaCoords: map<string, Coord> := map[
    "مدينة الكويت" := Coord(29.3759, 47.9774),
    "السالمية" := Coord(29.3339, 48.0760),
    "حولي" := Coord(29.3322, 48.0280),
    "الجابرية" := Coord(29.3147, 48.0404),
    "الرميثية" := Coord(29.3113, 48.0747),
    "بيان" := Coord(29.3074, 48.0471),
    "مشرف" := Coord(29.2952, 48.0545),
    "سلوى" := Coord(29.2898, 48.0825),
    "الزهراء" := Coord(29.2881, 48.0512),
    "السلام" := Coord(29.2818, 48.0421),
    "حطين" := Coord(29.2825, 48.0332),
    "الشهداء" := Coord(29.2810, 48.0250),
    "الصديق" := Coord(29.2800, 48.0150),
    "العديلية" := Coord(29.3350, 47.9777),
    "الخالدية" := Coord(29.3086, 47.9583),
    "كيفان" := Coord(29.3461, 47.9569),
    "قرطبة" := Coord(29.3278, 47.9572),
    "اليرموك" := Coord(29.3400, 47.9700),
    "السرة" := Coord(29.3300, 47.9800),
    "الفيحاء" := Coord(29.3505, 47.9642),
    "الشامية" := Coord(29.3532, 47.9578),
    "الروضة" := Coord(29.3444, 47.9797),
    "العقيلة" := Coord(29.1457, 48.1304),
    "أبو حليفة" := Coord(29.1389, 48.1300),
    "الصباحية" := Coord(29.1459, 48.1166),
    "المنقف" := Coord(29.1326, 48.1286),
    "الفنطاس" := Coord(29.1705, 48.1219),
    "الرقة" := Coord(29.1200, 48.1500),
    "هدية" := Coord(29.1100, 48.1600),
    "العدان" := Coord(29.2810, 48.0250),
    "القصور" := Coord(29.2700, 48.0150),
    "القرين" := Coord(29.2600, 48.0050),
    "صباح السالم" := Coord(29.2500, 47.9950),
    "المسيلة" := Coord(29.2400, 47.9850),
    "المسايل" := Coord(29.2300, 47.9750)
  ]

  /** The invitation radius, in kilometres. */
  const RadiusKm: real := 15.0

  /** The employee's area is known and within the radius of the event's coordinates;
      `distanceKm` stands for the haversine distance. */
  predicate Nearby(e: Employee, target: Coord, areaCoords: map<string, Coord>,
                   distanceKm: (Coord, Coord) -> real) {
    e.area in areaCoords && distanceKm(areaCoords[e.area], target) <= RadiusKm
  }

  /** The chat ids of `employees`, in order. */
  function ChatIds(employees: seq<Employee>): (r: seq<string>)
    ensures |r| == |employees| && forall i :: 0 <= i < |employees| ==> r[i] == employees[i].chatId
  {
    seq(|employees|, i requires 0 <= i < |employees| => employees[i].chatId)
  }

  /** The employees who live near `target`, in row order. */
  function NearbyEmployees(employees: seq<Employee>, target: Coord, areaCoords: map<string, Coord>,
                           distanceKm: (Coord, Coord) -> real): seq<Employee> {
    Seqs.Filter(employees, (e: Employee) => Nearby(e, target, areaCoords, distanceKm))
  }

  /** Extending the rows by one employee extends the chat ids by that employee's id
      exactly when the employee is nearby. */
  lemma NearbyEmployeesAppend(employees: seq<Employee>, e: Employee, target: Coord,
                              areaCoords: map<string, Coord>, distanceKm: (Coord, Coord) -> real)
    ensures ChatIds(NearbyEmployees(employees + [e], target, areaCoords, distanceKm))
            == ChatIds(NearbyEmployees(employees, target, areaCoords, distanceKm))
               + (if Nearby(e, target, areaCoords, distanceKm) then [e.chatId] else [])
  {
    Seqs.FilterAppend(employees, [e], (x: Employee) => Nearby(x, target, areaCoords, distanceKm));
  }

  /** The `sent_employees` loop of `main`: nobody when the event's area is unknown,
      otherwise the chat id of every employee whose area is known and at most 15 km
      away, in row order. */
  method SelectInvitees(employees: seq<Employee>, targetArea: string, areaCoords: map<string, Coord>,
                        distanceKm: (Coord, Coord) -> real) returns (sent: seq<string>)
    ensures targetArea !in areaCoords ==> sent == []
    ensures targetArea in areaCoords ==>
              sent == ChatIds(NearbyEmployees(employees, areaCoords[targetArea], areaCoords, distanceKm))
  {
    sent := [];
    if targetArea in areaCoords {
      var target := areaCoords[targetArea];
      var i := 0;
      while i < |employees|
        invariant 0 <= i <= |employees|
        invariant sent == ChatIds(NearbyEmployees(employees[..i], target, areaCoords, distanceKm))
      {
        assert employees[..i + 1] == employees[..i] + [employees[i]];
        NearbyEmployeesAppend(employees[..i], employees[i], target, areaCoords, distanceKm);
        var emp := employees[i];
        if emp.area in areaCoords {
          if distanceKm(areaCoords[emp.area], target) <= RadiusKm {
            sent := sent + [emp.chatId];
          }
        }
        i := i + 1;
      }
      assert employees[..i] == employees;
    }
  }

  /** The invitation sent to each invited chat, naming the event's area. */
  function InvitationText(targetArea: string): string {
    "يوجد حفل جديد في " + targetArea + ".\nهل أنتِ متاحة؟\nالرجاء الرد بـ 'موافقة'."
  }

  /** One invitation per invited chat, in list order. */
  function Invitations(sent: seq<string>, targetArea: string): (r: seq<Reply>)
    ensures |r| == |sent|
    ensures forall i :: 0 <= i < |sent| ==> r[i] == Reply(sent[i], InvitationText(targetArea))
    decreases |sent|
  {
    if |sent| == 0 then [] else [Reply(sent[0], InvitationText(targetArea))] + Invitations(sent[1..], targetArea)
  }
}

=== FILE: seqs.dfy ===
/** Sequence helpers shared by the models: Swift's `filter`, `first(where:)` and
    `firstIndex(where:)`. */
module Seqs {
  import opened Wrappers

  /** The elements of `s` that satisfy `p`, in their original order. */
  function Filter<T>(s: seq<T>, p: T -> bool): (r: seq<T>)
    ensures |r| <= |s|
    ensures forall i :: 0 <= i < |r| ==> r[i] in s && p(r[i])
    ensures forall i :: 0 <= i < |s| && p(s[i]) ==> s[i] in r
    decreases |s|
  {
    if |s| == 0 then []
    else if p(s[0]) then [s[0]] + Filter(s[1..], p)
    else Filter(s[1..], p)
  }

  /** Filtering distributes over concatenation. */
  lemma {:induction false} FilterAppend<T>(a: seq<T>, b: seq<T>, p: T -> bool)
    ensures Filter(a + b, p) == Filter(a, p) + Filter(b, p)
    decreases |a|
  {
    if |a| == 0 {
      assert a + b == b;
    } else {
      assert (a + b)[1..] == a[1..] + b;
      FilterAppend(a[1..], b, p);
    }
  }

  /** When every element satisfies `p`, filtering keeps the whole sequence. */
  lemma {:induction false} FilterAll<T>(s: seq<T>, p: T -> bool)
    requires forall i :: 0 <= i < |s| ==> p(s[i])
    ensures Filter(s, p) == s
    decreases |s|
  {
    if |s| > 0 {
      FilterAll(s[1..], p);
    }
  }

  /** When no element satisfies `p`, filtering yields the empty sequence. */
  lemma {:induction false} FilterNone<T>(s: seq<T>, p: T -> bool)
    requires forall i :: 0 <= i < |s| ==> !p(s[i])
    ensures Filter(s, p) == []
    decreases |s|
  {
    if |s| > 0 {
      FilterNone(s[1..], p);
    }
  }

  /** Filtering by `p` and then by `q` keeps the elements satisfying both. */
  lemma {:induction false} FilterFilter<T>(s: seq<T>, p: T -> bool, q: T -> bool, pq: T -> bool)
    requires forall x :: pq(x) == (p(x) && q(x))
    ensures Filter(Filter(s, p), q) == Filter(s, pq)
    decreases |s|
  {
    if |s| > 0 {
      FilterFilter(s[1..], p, q, pq);
    }
  }

  /** A weaker predicate keeps at least as many elements. */
  lemma {:induction false} FilterMonotone<T>(s: seq<T>, p: T -> bool, q: T -> bool)
    requires forall i :: 0 <= i < |s| && p(s[i]) ==> q(s[i])
    ensures |Filter(s, p)| <= |Filter(s, q)|
    decreases |s|
  {
    if |s| > 0 {
      FilterMonotone(s[1..], p, q);
    }
  }

  /** Replacing one element changes the filtered length by what the old and the new
      element contribute. */
  lemma FilterUpdate<T>(s: seq<T>, k: nat, v: T, p: T -> bool)
    requires k < |s|
    ensures |Filter(s[k := v], p)| == |Filter(s, p)| - (if p(s[k]) then 1 else 0) + (if p(v) then 1 else 0)
  {
    var t := s[k := v];
    assert s == s[..k] + [s[k]] + s[k + 1..];
    assert t == s[..k] + [v] + s[k + 1..];
    FilterAppend(s[..k] + [s[k]], s[k + 1..], p);
    FilterAppend(s[..k], [s[k]], p);
    FilterAppend(s[..k] + [v], s[k + 1..], p);
    FilterAppend(s[..k], [v], p);
  }

  /** The value of an option as a sequence of zero or one elements. */
  function OptionToSeq<T>(o: Option<T>): (r: seq<T>)
    ensures o.None? ==> r == []
    ensures o.Some? ==> r == [o.value]
  {
    if o.Some? then [o.value] else []
  }

  /** Swift's `compactMap`: the present results of `f` over `s`, in order. */
  function Collect<T, U>(s: seq<T>, f: T -> Option<U>): (r: seq<U>)
    ensures |r| <= |s|
    decreases |s|
  {
    if |s| == 0 then [] else OptionToSeq(f(s[0])) + Collect(s[1..], f)
  }

  /** Collecting distributes over concatenation. */
  lemma {:induction false} CollectAppend<T, U>(a: seq<T>, b: seq<T>, f: T -> Option<U>)
    ensures Collect(a + b, f) == Collect(a, f) + Collect(b, f)
    decreases |a|
  {
    if |a| == 0 {
      assert a + b == b;
    } else {
      assert (a + b)[0] == a[0] && (a + b)[1..] == a[1..] + b;
      CollectAppend(a[1..], b, f);
    }
  }

  /** Collecting one element gives its result, if present. */
  lemma CollectSingleton<T, U>(x: T, f: T -> Option<U>)
    ensures Collect([x], f) == OptionToSeq(f(x))
  {
    assert [x][1..] == [];
  }

  /** Every collected value is a present result of `f` on some element, so a property
      of all of those holds of every collected value. */
  lemma {:induction false} CollectKeeps<T, U>(s: seq<T>, f: T -> Option<U>, p: U -> bool)
    requires forall i :: 0 <= i < |s| && f(s[i]).Some? ==> p(f(s[i]).value)
    ensures forall j :: 0 <= j < |Collect(s, f)| ==> p(Collect(s, f)[j])
    decreases |s|
  {
    if |s| > 0 {
      CollectKeeps(s[1..], f, p);
      var h := OptionToSeq(f(s[0]));
      var t := Collect(s[1..], f);
      assert Collect(s, f) == h + t;
      forall j | 0 <= j < |h + t|
        ensures p((h + t)[j])
      {
        if j >= |h| {
          assert (h + t)[j] == t[j - |h|];
        }
      }
    }
  }

  /** The position of the first element satisfying `p`. */
  function FirstIndex<T>(s: seq<T>, p: T -> bool): (r: Option<nat>)
    ensures r.Some? ==> r.value < |s| && p(s[r.value])
    ensures r.Some? ==> forall j :: 0 <= j < r.value ==> !p(s[j])
    ensures r.None? <==> forall j :: 0 <= j < |s| ==> !p(s[j])
    decreases |s|
  {
    if |s| == 0 then None
    else if p(s[0]) then Some(0)
    else match FirstIndex(s[1..], p)
      case None => None
      case Some(k) => Some(k + 1)
  }
}

=== FILE: text.dfy ===
/** Character classes and the string splitting/trimming primitives that the
    Swift models (Foundation's `CharacterSet`, `components(separatedBy:)`,
    `trimmingCharacters(in:)`) and the Python bot (`str.strip`) rely on. */
module Text {
  import Seqs

  /** Foundation's `CharacterSet.newlines`: U+000A to U+000D, U+0085, U+2028, U+2029. */
  predicate IsNewline(c: char) {
    '\n' <= c <= '\r' || c == '\U{0085}' || c == '\U{2028}' || c == '\U{2029}'
  }

  /** Unicode general category Zs (space separators). */
  predicate IsSpaceSeparator(c: char) {
    c == ' ' || c == '\U{00A0}' || c == '\U{1680}' || '\U{2000}' <= c <= '\U{200A}'
    || c == '\U{202F}' || c == '\U{205F}' || c == '\U{3000}'
  }

  /** Foundation's `CharacterSet.whitespacesAndNewlines`: tab, category Zs and the newlines. */
  predicate IsSwiftWhitespace(c: char) {
    c == '\t' || IsSpaceSeparator(c) || IsNewline(c)
  }

  /** Python's `str.isspace` for one character, which is what `str.strip()` removes:
      U+0009 to U+000D, U+001C to U+001F, category Zs, U+0085, U+2028, U+2029. */
  predicate IsPythonWhitespace(c: char) {
    '\t' <= c <= '\r' || '\U{001C}' <= c <= '\U{001F}' || IsSpaceSeparator(c)
    || c == '\U{0085}' || c == '\U{2028}' || c == '\U{2029}'
  }

  /** Foundation's `components(separatedBy:)`: every separator character ends one
      component, so `k` separators always give `k + 1` components, possibly empty. */
  function Split(s: string, sep: char -> bool): (r: seq<string>)
    ensures |r| >= 1
    decreases |s|
  {
    if |s| == 0 then [[]]
    else
      var rest := Split(s[1..], sep);
      if sep(s[0]) then [[]] + rest
      else ConsFirst(s[0], rest)
  }

  /** Puts `c` in front of the first of `parts`. */
  function ConsFirst(c: char, parts: seq<string>): (r: seq<string>)
    requires |parts| >= 1
    ensures |r| == |parts| && r[0] == [c] + parts[0] && r[1..] == parts[1..]
  {
    [[c] + parts[0]] + parts[1..]
  }

  lemma ConsFirstAppend(c: char, p: seq<string>, q: seq<string>)
    requires |p| >= 1
    ensures ConsFirst(c, p + q) == ConsFirst(c, p) + q
  {
    assert (p + q)[0] == p[0] && (p + q)[1..] == p[1..] + q;
  }

  /** There is one more component than there are separators, and no component
      contains a separator. */
  lemma {:induction false} SplitShape(s: string, sep: char -> bool)
    ensures |Split(s, sep)| == |Seqs.Filter(s, sep)| + 1
    ensures forall i, k :: 0 <= i < |Split(s, sep)| && 0 <= k < |Split(s, sep)[i]| ==> !sep(Split(s, sep)[i][k])
    decreases |s|
  {
    if |s| > 0 {
      SplitShape(s[1..], sep);
    }
  }

  /** Splitting at a separator character is the concatenation of the two sides' splits. */
  lemma {:induction false} SplitAppend(a: string, c: char, b: string, sep: char -> bool)
    requires sep(c)
    ensures Split(a + [c] + b, sep) == Split(a, sep) + Split(b, sep)
    decreases |a|
  {
    if |a| == 0 {
      var x := a + [c] + b;
      assert x[0] == c && x[1..] == b;
      assert Split(x, sep) == [[]] + Split(b, sep);
    } else {
      var x := a + [c] + b;
      assert x[0] == a[0] && x[1..] == a[1..] + [c] + b;
      SplitAppend(a[1..], c, b, sep);
      var rest, left, right := Split(x[1..], sep), Split(a[1..], sep), Split(b, sep);
      assert rest == left + right;
      if sep(a[0]) {
        assert [[]] + (left + right) == ([[]] + left) + right;
      } else {
        ConsFirstAppend(a[0], left, right);
      }
    }
  }

  /** Drops the characters satisfying `ws` from the front of `s`. */
  function TrimStart(s: string, ws: char -> bool): (r: string)
    ensures |r| <= |s| && r == s[|s| - |r|..]
    ensures forall i :: 0 <= i < |s| - |r| ==> ws(s[i])
    ensures |r| > 0 ==> !ws(r[0])
    decreases |s|
  {
    if |s| > 0 && ws(s[0]) then TrimStart(s[1..], ws) else s
  }

  /** Drops the characters satisfying `ws` from the back of `s`. */
  function TrimEnd(s: string, ws: char -> bool): (r: string)
    ensures |r| <= |s| && r == s[..|r|]
    ensures forall i :: |r| <= i < |s| ==> ws(s[i])
    ensures |r| > 0 ==> !ws(r[|r| - 1])
    decreases |s|
  {
    if |s| > 0 && ws(s[|s| - 1]) then TrimEnd(s[..|s| - 1], ws) else s
  }

  /** Foundation's `trimmingCharacters(in:)` and Python's `str.strip`: removes the
      characters satisfying `ws` from both ends and keeps the middle untouched. */
  function Trim(s: string, ws: char -> bool): (r: string)
    ensures |r| <= |s|
    ensures |r| > 0 ==> !ws(r[0]) && !ws(r[|r| - 1])
    ensures r == [] <==> forall i :: 0 <= i < |s| ==> ws(s[i])
  {
    var t := TrimStart(s, ws);
    var r := TrimEnd(t, ws);
    assert r == [] ==> t == [];
    r
  }

  /** Nothing to trim: `s` is empty or starts and ends outside `ws`. */
  predicate Trimmed(s: string, ws: char -> bool) {
    |s| == 0 || (!ws(s[0]) && !ws(s[|s| - 1]))
  }

  /** Trimming leaves a string with nothing to trim as it is. */
  lemma TrimTrimmed(s: string, ws: char -> bool)
    requires Trimmed(s, ws)
    ensures Trim(s, ws) == s
  {
  }

  /** Trimming twice is trimming once. */
  lemma TrimIdempotent(s: string, ws: char -> bool)
    ensures Trim(Trim(s, ws), ws) == Trim(s, ws)
  {
    TrimTrimmed(Trim(s, ws), ws);
  }
}

=== FILE: user.dfy ===
/** Host accounts and their event quota (Models/User.swift). */
module Users {
  import opened Wrappers

  datatype UserRole = Host | DoorStaff | Admin {

    function RawValue(): string {
      match this
      case Host => "host"
      case DoorStaff => "door_staff"
      case Admin => "admin"
    }

    function DisplayName(): string {
      match this
      case Host => "Host"
      case DoorStaff => "Door Staff"
      case Admin => "Admin"
    }
  }

  /** Swift's synthesized `UserRole(rawValue:)`. */
  function RoleFromRawValue(raw: string): (r: Option<UserRole>)
    ensures r.Some? ==> r.value.RawValue() == raw
  {
    if raw == "host" then Some(Host)
    else if raw == "door_staff" then Some(DoorStaff)
    else if raw == "admin" then Some(Admin)
    else None
  }

  /** Raw values decode back to their role; distinct roles have distinct raw values and
      distinct display names. */
  lemma RoleRawValueRoundTrip(role: UserRole)
    ensures RoleFromRawValue(role.RawValue()) == Some(role)
    ensures forall other: UserRole :: other != role ==> other.DisplayName() != role.DisplayName()
    ensures forall other: UserRole :: other != role ==> other.RawValue() != role.RawValue()
  {
  }

  datatype User = User(
    id: string,
    email: string,
    name: string,
    phoneNumber: Option<string>,
    role: UserRole,
    isActive: bool,
    profileImageURL: Option<string>,
    createdAt: int,
    lastLoginAt: Option<int>,
    subscriptionTier: Option<string>,
    subscriptionExpiresAt: Option<int>,
    eventsCreatedCount: int,
    monthlyEventLimit: int)

  /** A subscription is active when it has an expiry strictly after `now` (which stands
      for `Date()`). */
  predicate HasActiveSubscription(u: User, now: int) {
    match u.subscriptionExpiresAt
    case None => false
    case Some(expiry) => expiry > now
  }

  /** A host may create another event while under the monthly limit, or at any count
      while subscribed. */
  predicate CanCreateMoreEvents(u: User, now: int) {
    u.eventsCreatedCount < u.monthlyEventLimit || HasActiveSubscription(u, now)
  }

  /** Events left under the monthly limit, never below zero. */
  function RemainingEvents(u: User): (r: int)
    ensures r >= 0
    ensures r == 0 <==> u.eventsCreatedCount >= u.monthlyEventLimit
    ensures r > 0 ==> u.eventsCreatedCount + r == u.monthlyEventLimit
  {
    if u.monthlyEventLimit - u.eventsCreatedCount > 0 then u.monthlyEventLimit - u.eventsCreatedCount else 0
  }

  /** Quota left always permits another event, whatever the subscription; with no quota
      left, only an active subscription does. */
  lemma RemainingEventsPermitCreation(u: User, now: int)
    ensures RemainingEvents(u) > 0 ==> CanCreateMoreEvents(u, now)
    ensures RemainingEvents(u) == 0 ==> (CanCreateMoreEvents(u, now) <==> HasActiveSubscription(u, now))
    ensures u.subscriptionExpiresAt.None? ==> (CanCreateMoreEvents(u, now) <==> RemainingEvents(u) > 0)
  {
  }

  /** A subscription that is active now was active at every earlier moment. */
  lemma SubscriptionActiveEarlier(u: User, earlier: int, now: int)
    requires earlier <= now && HasActiveSubscription(u, now)
    ensures HasActiveSubscription(u, earlier)
  {
  }
}

=== FILE: wrappers.dfy ===
/** Optional values: Swift's `T?` and Python's `None`. */
module Wrappers {
  datatype Option<+T> = None | Some(value: T)
}
